=== FILE: README.md ===
# GM stock tracker — a Dafny model

GM tracks cannabis stock for one shop. Its parts are:

- a Flask server with inventory lots, the joint batches rolled from them, and user accounts;
- a React front end with an inventory manager, a joints page per lot, an employee dashboard, a superadmin dashboard and a role-gated router.

The front end keeps two local stores:

- an offline queue of inventory writes, replayed later;
- a cache of the joint list, updated optimistically.

This project models that core as pure functions over immutable data. It proves what each operation promises about its result, plus the properties that tie operations together:

- a replay drains the queue in FIFO order;
- the server routes keep lot stock non-negative and keep a lot closed once closed;
- signup and role updates keep accounts unique and never demote a superadmin;
- the pages compute what the server will accept.

## Layout

| file | module | models |
|---|---|---|
| `wrappers.dfy` | `Wrappers` | `Option` and `GetOr` (Python's `dict.get(k, default)`, JavaScript's `x \|\| d` on a present-or-absent value) |
| `seqs.dfy` | `Seqs` | order-keeping filter, subsequence, `reduce`-style sums, and their lemmas |
| `js_values.dfy` | `JsValues` | JSON values as the browser stores them: truthiness, property reads that throw on `null` |
| `inventory_service.dfy` | `InventoryService` | the offline write queue, its replay, and the inventory API calls |
| `joint_service.dfy` | `JointService` | the cached joint list and the joint API calls |
| `stock.dfy` | `Stock` | the server's lot and batch tables, and its replies |
| `inventory_routes.dfy` | `InventoryRoutes` | `POST /api/inventory/` and `PUT /api/inventory/<id>` |
| `joint_routes.dfy` | `JointRoutes` | `POST /api/joints/` and `PUT /api/joints/<id>` |
| `stock_api.dfy` | `StockApi` | any run of those four requests, and the invariants it keeps |
| `user_routes.dfy` | `UserRoutes` | user listing with its cache, signup, login, role update |
| `page_records.dfy` | `PageRecords` | the lot and batch rows the pages hold, lookups, `String(id)` |
| `inventory_page.dfy` | `InventoryPage` | filters, pagination, the grams-sold update, merge, the create form |
| `joints_page.dfy` | `JointsPage` | a lot's batch list, the add form, selling, assigning, totals |
| `employee_dashboard.dfy` | `EmployeeDashboard` | assigned batches, the sale form, day totals in local storage |
| `superadmin_dashboard.dfy` | `SuperadminDashboard` | the summary cards, order trend, donut, bar and sparkline series |
| `role_route.dfy` | `RoleRoute` | the route guard |
| `integration.dfy` | `Integration` | how the server reads each body a page sends |

The model has these parameters in place of the environment:

- **The network.** The replay takes a script of outcomes, one `bool` per request. A missing outcome counts as a failure. Every other remote call takes one `Answer` or `Fetch` value.
- **The clock.** `datetime.utcnow()`, `Date.now()` and `toDateString()` are the parameters `now` and `today`.
- **Connectivity.** `navigator.onLine` is the parameter `online`.
- **Password checking.** bcrypt is the parameter `check`.

Numbers are modelled like this:

- grams and prices are `real`;
- counts and ids are `int`;
- a JSON field that is absent or `null` is `None`.

## Model

| member | source | states |
|---|---|---|
| InventoryService.QueueUpdate | frontend/src/Service/InventoryService.jsx:13-17 | queueing appends exactly one entry at the end of the stored log, an absent log reading as empty, and leaves the earlier entries as they were |
| InventoryService.RequestsConcat | frontend/src/Service/InventoryService.jsx:26-34 | the requests a log dispatches to are those of its two halves in order, so the dispatch of each entry depends only on that entry |
| InventoryService.Replay | frontend/src/Service/InventoryService.jsx:26-38 | the loop stops at the first failing request; it finishes iff every request succeeds, and then it has sent every request in queue order; on a failure at entry k it has sent the requests of entries before k and then k's own |
| InventoryService.SyncOfflineChanges | frontend/src/Service/InventoryService.jsx:20-42 | an empty log sends nothing and changes nothing; a full replay clears the log; a failure leaves the stored log exactly as it was |
| InventoryService.UnknownEntriesAreCleared | frontend/src/Service/InventoryService.jsx:28-34 | entries of an unknown type send nothing and are dropped when the log is cleared |
| InventoryService.NoRequestsFromUnknown | frontend/src/Service/InventoryService.jsx:28-34 | a log of entries of unknown type dispatches no request |
| InventoryService.EnqueueAllAppends | frontend/src/Service/InventoryService.jsx:13-17 | queueing entries one after another appends them in order |
| InventoryService.FifoReplay | frontend/src/Service/InventoryService.jsx:13-41 | entries queued offline are replayed in the order they were queued, and a full replay empties the queue |
| InventoryService.SentIsPrefix | frontend/src/Service/InventoryService.jsx:27-39 | a drain sends, in log order, a prefix of the requests a full pass over the log would send |
| InventoryService.FailedDrainResendsConfirmed | frontend/src/Service/InventoryService.jsx:35-41 | after a failed drain the log is unchanged, so the next drain starts with the request the server already confirmed, agrees with the first drain on every request both sent, and, once its first confirmed-count outcomes succeed, sends every request of the first drain again |
| InventoryService.CreateIsPostedTwice | frontend/src/Service/InventoryService.jsx:35-41 | a concrete queue holds a create and then a delete; the delete fails once, then succeeds; the create is posted twice |
| InventoryService.SyncKeepingRest | frontend/src/Service/InventoryService.jsx:35-41 | corrected replay: it sends the same requests, but on a failure at entry k it stores only the entries from k on |
| InventoryService.KeepingRestConserves | frontend/src/Service/InventoryService.jsx:26-41 | with the corrected replay, the requests confirmed followed by the requests still queued are exactly the queue's requests |
| InventoryService.DrainManyConserves | frontend/src/Service/InventoryService.jsx:26-41 | over any number of corrected replays, everything confirmed followed by everything still queued is the original queue's requests: nothing is sent twice or lost |
| InventoryService.CreateInventory | frontend/src/Service/InventoryService.jsx:58-72 | offline, the create is queued without sending and the reply echoes the payload as `inventory`; online, exactly one POST is sent, the queue is untouched, and the call throws iff the server rejects |
| InventoryService.WithId | frontend/src/Service/InventoryService.jsx:80 | `{id, ...payload}` has the payload's keys plus `id`, keeps every payload value, and uses the argument id only when the payload has none |
| InventoryService.UpdateInventory | frontend/src/Service/InventoryService.jsx:75-89 | offline, the update is queued and the reply echoes `{id, ...payload}`; online, exactly one PUT is sent and the call throws iff the server rejects |
| InventoryService.DeleteInventory | frontend/src/Service/InventoryService.jsx:92-106 | offline, the delete is queued and the reply carries the id; online, exactly one DELETE is sent and the call throws iff the server rejects |
| InventoryService.OfflineUpdateReplaysAsOnline | frontend/src/Service/InventoryService.jsx:75-89 | an update queued offline is later replayed as the very PUT the online path would have sent |
| InventoryService.GetInventories | frontend/src/Service/InventoryService.jsx:47-55 | a failed request or a `null` body gives `[]`; otherwise the result is the body's `inventories` field, and it is undefined exactly when a non-null body has no such field |
| InventoryService.ServerInventoriesAreRead | frontend/src/Service/InventoryService.jsx:50 | the list endpoint's own `{"inventories": [...]}` body is read back as exactly its list |
| JsValues.Prop | frontend/src/Service/InventoryService.jsx:50 | reading a property throws exactly on `null`, yields a value exactly when the value is an object holding the key (and then that field), and is undefined otherwise |
| JointService.GetJoints | frontend/src/Service/JointService.jsx:12-33 | a truthy cache is returned at once and left as it was; otherwise the call waits for the fetch, throws on a network or HTTP error, and on success caches and returns the body if it is an array, else `[]` |
| JointService.EmptyListIsSticky | frontend/src/Service/JointService.jsx:14 | a cached `[]` is truthy, so once an empty list is cached later reads return it without waiting for the fetch |
| JointService.Optimistic | frontend/src/Service/JointService.jsx:60 | the offline record has the joint's keys plus `id` and `offline: true`, keeps the joint's other values, and uses the clock as `id` only when the joint has none |
| JointService.CreateJoint | frontend/src/Service/JointService.jsx:34-67 | never throws; returns the server body, or the offline record on any failure; appends exactly that value to the cached list, where a non-array cache counts as empty |
| JointService.UpdateJoint | frontend/src/Service/JointService.jsx:70-91 | a failed request throws and leaves the cache; on success only the rows with the id are replaced by the server body, in place; the request body itself is not part of the result |
| JointService.UpdateOfAbsentIdKeepsList | frontend/src/Service/JointService.jsx:82-84 | updating an id the cache does not hold leaves the cached rows unchanged |
| JointService.DeleteJoint | frontend/src/Service/JointService.jsx:94-110 | a failed request throws and leaves the cache; on success the cache is a subsequence of the old list holding every copy of each row without that id and no row with it, so exactly those rows in their order |
| JointService.DeleteIsIdempotent | frontend/src/Service/JointService.jsx:101-103 | deleting the same id twice leaves the same cache as deleting it once |
| JointService.ServerListIsDropped | frontend/src/Service/JointService.jsx:27-32 | the server's `{joints: [...]}` body is not an array, so an empty-cache read returns and caches `[]` whatever the server listed |
| JointService.GetJointsUnwrapped | frontend/src/Service/JointService.jsx:12-33 | corrected read: same cache and error behaviour, and a successful fetch always caches an array |
| JointService.UnwrappedReadReturnsServerList | server/routes/joint.py:32 | the corrected read returns and caches exactly the list the server sent under `joints` |
| InventoryRoutes.Create | server/routes/inventory.py:36-73 | a 400 with the exact message and nothing committed unless a strain name, price per gram and buying price are given; otherwise a 201 that inserts the lot at the next id; grams default to 0; the lot is closed at `now` iff its grams are 0 |
| InventoryRoutes.Update | server/routes/inventory.py:75-118 | a 404 for an unknown id; a 400 when the sold quantity exceeds the stock, with nothing committed; otherwise a 200 where the stock drops by exactly the quantity sold and stays non-negative; the sale price is added to the takings only alongside a quantity; a closed lot stays closed at its old time; an open lot closes iff it is forced or a sale empties it; name and prices default to their old values |
| JointRoutes.Missing | server/routes/joint.py:38-41 | lists a required field iff it is missing or falsy, and is empty iff all four are truthy |
| JointRoutes.Create | server/routes/joint.py:36-81 | a 400 naming the missing fields; a 404 for an unknown lot; a 400 when the lot lacks the grams; otherwise a 201 that stores the batch at the next id; the lot loses exactly the grams used and stays non-negative; the lot closes iff this empties it; nothing is committed on an error |
| JointRoutes.Update | server/routes/joint.py:85-130 | a 404 for an unknown batch or lot; a 400 iff the new grams exceed the lot's stock plus the batch's old grams; on a 200 the lot's stock plus the batch's grams is unchanged, the stock is non-negative, the lot closes only when emptied, and each field takes the body's value or keeps its own |
| StockApi.HandleKeepsEnds | server/routes/inventory.py:83-101 | no create or update drops a lot, reopens a closed lot or moves its end time |
| StockApi.HandleKeepsValid | server/routes/joint.py:61-77 | every request keeps every stored id below its table's next id |
| StockApi.HandleKeepsStockNonNegative | server/routes/joint.py:97-112 | from a store with no negative stock, a request that does not itself create a negative lot leaves none |
| StockApi.RunKeepsEnds | server/routes/inventory.py:83-101 | over any run of requests, stored ids stay below the counters, no lot is dropped, and closed lots stay closed at their first end time |
| StockApi.RunKeepsStockNonNegative | server/routes/joint.py:48-58 | over any run of requests that create no negative lot, no lot's stock goes below zero |
| UserRoutes.Invalidate | server/routes/user.py:12-14 | dropping the cache changes nothing else |
| UserRoutes.ListUsers | server/routes/user.py:16-30 | a non-empty cached list is served as cached and nothing changes; otherwise the table is served fresh and cached |
| UserRoutes.Signup | server/routes/user.py:33-66 | a 400 unless all three fields are given; a 400 for a taken email; a 500 for a taken username; otherwise a 201 that adds the user at the next id, as superadmin iff the table was empty, and drops the cache; nothing changes on an error |
| UserRoutes.UpdateRole | server/routes/user.py:86-111 | a 400 for a role outside employee, superadmin or null; a 404 for an unknown user; a 400 for any change to a superadmin's role; a 200 iff none of these applies, which sets only that user's role and drops the cache |
| UserRoutes.Login | server/routes/user.py:68-84 | a 200 with the account iff the email exists and the password checks; a 500 iff the stored hash is invalid; the same 401 otherwise; nothing changes |
| UserRoutes.LoginDoesNotRevealAccounts | server/routes/user.py:74-80 | an unknown email and a wrong password for a known one get the same reply |
| UserRoutes.SignupKeepsValid | server/models/user.py:9-11 | signup keeps ids, emails and usernames unique |
| UserRoutes.UpdateRoleKeepsValid | server/routes/user.py:100-102 | a role update keeps ids, emails and usernames unique |
| UserRoutes.UpdateRoleKeepsSuperadmins | server/routes/user.py:97-98 | no role update takes the superadmin role from anyone |
| UserRoutes.OperationsKeepCacheCoherent | server/routes/user.py:57 | after any listing, signup or role update, the cache is empty or equal to the table |
| UserRoutes.ListAfterSignupIsFresh | server/routes/user.py:57 | after a signup the next listing reads the table and includes the new user |
| PageRecords.FindLot | frontend/src/pages/Inventory.jsx:97 | `find` returns a lot iff one has the id, and then the first such lot |
| InventoryPage.IncludesMeansOccurs | frontend/src/pages/Inventory.jsx:52-54 | the `includes` scan succeeds iff the needle occurs at some offset of the text |
| InventoryPage.Refilter | frontend/src/pages/Inventory.jsx:48-71 | changing a filter resets the page to 1 |
| InventoryPage.RefilterIsOneFilter | frontend/src/pages/Inventory.jsx:48-69 | the five filter stages, each applied only when its input is filled, keep exactly the lots passing all of them, in order |
| InventoryPage.EmptyFiltersShowAll | frontend/src/pages/Inventory.jsx:51-67 | with every filter input empty, no stage removes anything and all lots are shown |
| InventoryPage.RefilterSelects | frontend/src/pages/Inventory.jsx:48-69 | the visible list is a subsequence of the lots; every visible lot passes each filled filter, and no passing lot is dropped |
| InventoryPage.PageIsWindow | frontend/src/pages/Inventory.jsx:74-77 | page p shows rows 5(p-1) to 5p, cut at the list end; at most five rows; it is non-empty iff p is at most the page count |
| InventoryPage.PagesArePrefix | frontend/src/pages/Inventory.jsx:74-76 | pages 1..k together are the first 5k rows |
| InventoryPage.PagesCoverList | frontend/src/pages/Inventory.jsx:74-77 | pages 1 through `Math.ceil(n/5)` show every row exactly once, in order |
| InventoryPage.TotalPages | frontend/src/pages/Inventory.jsx:77 | the page count is the least number of five-row pages that holds the list |
| InventoryPage.Prev | frontend/src/pages/Inventory.jsx:249 | Prev goes back one page and never below page 1 |
| InventoryPage.Next | frontend/src/pages/Inventory.jsx:259 | Next goes forward one page and never past the page count; at or beyond the last page it lands on the page count |
| InventoryPage.NextOnEmptyListLeavesPageRange | frontend/src/pages/Inventory.jsx:259-260 | with an empty list, Next is enabled on page 1 and moves to page 0 |
| InventoryPage.NextClamped | frontend/src/pages/Inventory.jsx:259 | corrected Next: never below page 1, otherwise one page forward up to the page count |
| InventoryPage.NavigationStaysInRange | frontend/src/pages/Inventory.jsx:249-260 | from a page in range, Prev and the corrected Next stay in range |
| InventoryPage.SoldUpdate | frontend/src/pages/Inventory.jsx:90-101 | no request unless the grams sold are positive and the row exists; the new stock is the old minus the grams sold, clamped at 0; the price is the typed one if positive, else the lot's takings or 0 |
| InventoryPage.SaleRequest | server/routes/inventory.py:87-96 | corrected sale body: same guards, sends the grams sold as `quantity_sold`, and sends the price only when one was typed |
| InventoryPage.SpreadEmptyKeepsLot | frontend/src/pages/Inventory.jsx:104 | spreading a patch with no fields leaves the lot unchanged |
| InventoryPage.SpreadIdempotent | frontend/src/pages/Inventory.jsx:104 | spreading the same patch twice gives what spreading it once gives |
| InventoryPage.SpreadThen | frontend/src/pages/Inventory.jsx:104 | two spreads in a row equal one spread of the combined patch, the later patch's fields winning |
| InventoryPage.Merge | frontend/src/pages/Inventory.jsx:103-105 | merging keeps the list's length and order and changes only the rows with the id |
| InventoryPage.MergeEmptyPatchKeepsList | frontend/src/pages/Inventory.jsx:103-105 | a response without an `inventory` leaves the list unchanged |
| InventoryPage.OfflineSaleShowsNewStock | frontend/src/Service/InventoryService.jsx:80 | offline, the sold row shows the sent stock and price and keeps its id and name |
| InventoryPage.AddInventory | frontend/src/pages/Inventory.jsx:113-125 | a create is sent iff all four fields are filled, carrying exactly the entered values |
| JointsPage.LotJoints | frontend/src/pages/JointsPage.jsx:53-58 | the page lists a subsequence of the batches holding every copy of each batch of its lot and nothing else, so exactly those batches in order |
| JointsPage.AppendedBatchIsListedLast | frontend/src/pages/JointsPage.jsx:53-58 | a batch appended to the list appears last on its own lot's page and on no other |
| JointsPage.AddJoint | frontend/src/pages/JointsPage.jsx:82-104 | refused iff some value is not positive; otherwise refused iff the lot is unknown or short of the grams; otherwise the body carries the lot id and entered values, unassigned with nothing sold |
| JointsPage.Sell | frontend/src/pages/JointsPage.jsx:123-142 | a non-positive quantity does nothing; a missing row throws; more than the batch's count is refused; a request is sent iff none of these applies, and its body carries the quantity, the price and the seller |
| JointsPage.SellFromListedRow | frontend/src/pages/JointsPage.jsx:286 | selling from a listed row never throws in the lookup |
| JointsPage.SellCounted | server/routes/joint.py:115-118 | corrected sale body: under the same guards, sends the count minus the quantity sold and adds the sale to the takings |
| JointsPage.AssignTarget | frontend/src/pages/JointsPage.jsx:309 | the target is the selected employee if one is chosen, else the current assignee |
| JointsPage.Assign | frontend/src/pages/JointsPage.jsx:156-162 | an assignment is sent iff the target is truthy, and it carries that target |
| JointsPage.AssignNeedsATarget | frontend/src/pages/JointsPage.jsx:156-160 | an unassigned batch with nothing selected sends nothing; any selection is sent as is |
| JointsPage.ComputeTotals | frontend/src/pages/JointsPage.jsx:190-196 | a single pass gives the joint count, the stock value (count times price) and the cash taken, each field read as 0 when missing |
| JointsPage.TotalJointsNonNegative | frontend/src/pages/JointsPage.jsx:190 | when no batch has a negative count, the total is not negative |
| EmployeeDashboard.Listed | frontend/src/pages/EmployeeDashboard.jsx:32-51 | nothing is listed without an employee id; otherwise the list is a subsequence holding every copy of each batch whose `String(assigned_to)` equals the employee's and whose count is positive, and nothing else |
| EmployeeDashboard.IntTextIsNotNull | frontend/src/pages/EmployeeDashboard.jsx:37 | a numeric id's text is never `"null"` |
| EmployeeDashboard.NumericAndTextIdsAgree | frontend/src/pages/EmployeeDashboard.jsx:37 | a batch assigned to user n is listed whether the id in hand is the number n or its text; an unassigned batch is listed for neither |
| EmployeeDashboard.Sell | frontend/src/pages/EmployeeDashboard.jsx:65-88 | refused iff the quantity or price is not positive, then iff the quantity exceeds the count; otherwise the new count is in [0, count), count and quantity add up to the old count, and the takings grow by price times quantity |
| EmployeeDashboard.Replace | frontend/src/pages/EmployeeDashboard.jsx:91 | only rows with the id are replaced by the server's batch |
| EmployeeDashboard.AfterSale | frontend/src/pages/EmployeeDashboard.jsx:90-93 | after a sale every listed batch has a positive count; each is the updated one or an untouched other row; no other in-stock row is lost; the updated batch stays iff its count is still positive; the list is the replaced list minus exactly its emptied rows, in order |
| EmployeeDashboard.Record | frontend/src/pages/EmployeeDashboard.jsx:96-99 | one sale adds its quantity to the day's count and price times quantity to its value |
| EmployeeDashboard.RecordAllSums | frontend/src/pages/EmployeeDashboard.jsx:96-99 | after any run of sales, the day's totals are the start plus the summed quantities and amounts |
| EmployeeDashboard.Restore | frontend/src/pages/EmployeeDashboard.jsx:15-20 | the saved totals are used iff they are dated today, else the day starts at zero |
| EmployeeDashboard.RestoreAfterPersist | frontend/src/pages/EmployeeDashboard.jsx:15-28 | totals survive a reload on the same day and start over on another day |
| EmployeeDashboard.ChangeEntry | frontend/src/pages/EmployeeDashboard.jsx:56-62 | a negative value is ignored, any other replaces the field |
| EmployeeDashboard.Remaining | frontend/src/pages/EmployeeDashboard.jsx:143-144 | the column shows the count minus the typed quantity, never below 0 and never above the count; 0 once the typed quantity reaches the count |
| EmployeeDashboard.EditsStayNonNegative | frontend/src/pages/EmployeeDashboard.jsx:57 | starting from a cleared field, no run of edits makes the typed quantity negative |
| EmployeeDashboard.RemainingNeverExceedsCount | frontend/src/pages/EmployeeDashboard.jsx:57-144 | so the column never shows more joints than the batch holds |
| SuperadminDashboard.ComputeTotals | frontend/src/pages/SuperadminDashboard.jsx:39-57 | a single pass gives the four cards as nested sums, missing fields read as 0 |
| SuperadminDashboard.TotalsSplit | frontend/src/pages/SuperadminDashboard.jsx:39-57 | the cards of two lists shown together are the sums of their cards |
| SuperadminDashboard.Bump | frontend/src/pages/SuperadminDashboard.jsx:129-132 | counting a sale's day keeps the existing days in order and adds the day with count 1 iff it is new |
| SuperadminDashboard.BumpAddsOne | frontend/src/pages/SuperadminDashboard.jsx:132 | counting one sale raises the trend's total by exactly one |
| SuperadminDashboard.BumpKeepsDistinct | frontend/src/pages/SuperadminDashboard.jsx:130-131 | a day never appears twice in the trend |
| SuperadminDashboard.TallyProperties | frontend/src/pages/SuperadminDashboard.jsx:127-134 | tallying keeps days distinct, adds one per sale, and lists every sale's day and every day already there |
| SuperadminDashboard.TallyDayTotal | frontend/src/pages/SuperadminDashboard.jsx:127-134 | tallying adds to each day's listed count exactly the number of sales on that day, and listed counts stay positive |
| SuperadminDashboard.TrendCountsEverySale | frontend/src/pages/SuperadminDashboard.jsx:127-138 | the trend's days are distinct; a day is listed iff some sale fell on it; each listed count is the number of that day's sales; the counts add up to the number of sales |
| SuperadminDashboard.PieSource | frontend/src/pages/SuperadminDashboard.jsx:148-152 | one slice per lot, in order, named by strain and sized by grams, missing grams read as 0 |
| SuperadminDashboard.PieSourceSum | frontend/src/pages/SuperadminDashboard.jsx:148-152 | the slices add up to the total-grams card |
| SuperadminDashboard.Insert | frontend/src/pages/SuperadminDashboard.jsx:154 | inserting adds exactly one slice, as a permutation |
| SuperadminDashboard.InsertAtMost | frontend/src/pages/SuperadminDashboard.jsx:154 | inserting a slice no larger than a bound keeps every slice within that bound |
| SuperadminDashboard.InsertKeepsDescending | frontend/src/pages/SuperadminDashboard.jsx:154 | inserting into a descending list keeps it descending and adds the slice's size to the sum |
| SuperadminDashboard.SortDescending | frontend/src/pages/SuperadminDashboard.jsx:154 | the sort is a permutation of the slices |
| SuperadminDashboard.SortProperties | frontend/src/pages/SuperadminDashboard.jsx:154 | the sorted slices are in descending order of size and keep the total |
| SuperadminDashboard.BucketLayout | frontend/src/pages/SuperadminDashboard.jsx:155-168 | for any descending list: at most seven slices; the list itself when it has six or fewer; otherwise its first six slices, none smaller than a slice left out, then "Others" |
| SuperadminDashboard.BucketTotal | frontend/src/pages/SuperadminDashboard.jsx:155-168 | folding the slices after the sixth into "Others" keeps the total of the slices |
| SuperadminDashboard.PieShape | frontend/src/pages/SuperadminDashboard.jsx:154-168 | at most seven slices; with six lots or fewer, exactly the sorted slices; with more, the six largest (none smaller than any left out) and then "Others"; the slices add up to the total-grams card |
| SuperadminDashboard.PieShown | frontend/src/pages/SuperadminDashboard.jsx:254 | the donut always gets data: the placeholder slice iff there are no lots |
| SuperadminDashboard.Bars | frontend/src/pages/SuperadminDashboard.jsx:170-173 | one bar per lot, in order, holding its sold quantity |
| SuperadminDashboard.Sparkline | frontend/src/pages/SuperadminDashboard.jsx:143-146 | one point per lot, numbered from 1, holding its sales amount |
| SuperadminDashboard.BarsSumToSalesCount | frontend/src/pages/SuperadminDashboard.jsx:170-173 | the bars add up to the joints-sold card |
| SuperadminDashboard.SparklineSumsToSalesAmount | frontend/src/pages/SuperadminDashboard.jsx:143-146 | the sparkline adds up to the total-sales card |
| RoleRoute.Guard | frontend/src/components/RoleRoute.jsx:4-13 | no user goes to the login page; the page renders iff the user's role is in the allowed list; anyone else is denied |
| RoleRoute.OmittedRolesAdmitNoOne | frontend/src/components/RoleRoute.jsx:4 | with the default empty role list, nobody gets in |
| RoleRoute.SingleRolePages | frontend/src/App.jsx:38-57 | the employee routes admit exactly employees and the superadmin routes exactly superadmins |
| RoleRoute.RolelessUserIsDenied | frontend/src/components/RoleRoute.jsx:9-11 | a signed-in user without a role is always denied |
| Integration.AcceptedFormCreatesLot | server/routes/inventory.py:44-51 | every create the inventory form sends is accepted; a lot entered with 0 g is closed at once |
| Integration.PageSaleIsIgnored | server/routes/inventory.py:87-106 | the inventory page's sale body has no `quantity_sold`, so the server answers 200 and leaves the lot unchanged |
| Integration.FourGramsSoldStayInStock | frontend/src/pages/Inventory.jsx:98-101 | a concrete case: 4 g sold from a 10 g lot sends a stock of 6 g, and the server keeps 10 g |
| Integration.CorrectedSaleLowersStock | server/routes/inventory.py:89-96 | with the corrected body, the server lowers the lot by exactly the grams sold and adds the typed price; an oversale is refused and changes nothing |
| Integration.AcceptedBatchIsCreated | server/routes/joint.py:38-77 | a batch the joints page lets through is created whenever the page's lot is current; the lot loses exactly its grams; the batch is unassigned with nothing sold |
| Integration.JointsPageSaleKeepsCount | server/routes/joint.py:115-118 | a sale from the joints page leaves the batch's count as it was and overwrites its takings with this sale's price |
| Integration.TwoSoldStillFive | frontend/src/pages/JointsPage.jsx:134-138 | a concrete case: selling 2 of 5 leaves 5 on the server, and takings of 100 become 40 |
| Integration.CountedSaleLowersCount | server/routes/joint.py:115-118 | with the corrected body, the batch loses exactly the joints sold and its takings grow by the sale |
| Integration.EmployeeSaleLowersCount | frontend/src/pages/EmployeeDashboard.jsx:79-88 | an employee sale lowers the server's count by exactly the quantity, adds price times quantity to the takings, and leaves the lots alone |

Some members model source lines but have no row: they carry no contract of their own, or one that only names the pieces of their result. The rows above state their behaviour through the members that use them:

- `InventoryService.Dispatch` (frontend/src/Service/InventoryService.jsx:27-34), through `Replay`, `RequestsConcat` and `OfflineUpdateReplaysAsOnline`.
- `InventoryRoutes.Apply` (server/routes/inventory.py:83-106), through `InventoryRoutes.Update`.
- `JointRoutes.Settle` (server/routes/joint.py:55-58 and 109-112), through `JointRoutes.Create` and `JointRoutes.Update`.
- `StockApi.Handle` and `StockApi.Run`, the dispatch of one request and of a run of requests, through the `StockApi` invariant lemmas.
- `SuperadminDashboard.Totals` (frontend/src/pages/SuperadminDashboard.jsx:39-57), through `ComputeTotals` and `TotalsSplit`.
- `SuperadminDashboard.Tally` and `SuperadminDashboard.Trend` (frontend/src/pages/SuperadminDashboard.jsx:127-134), through `TallyProperties`, `TallyDayTotal` and `TrendCountsEverySale`.
- `InventoryPage.Spread` (frontend/src/pages/Inventory.jsx:104), whose contract lists the field each key comes from; its behaviour is stated by `SpreadEmptyKeepsLot`, `SpreadIdempotent`, `SpreadThen`, `Merge`, `MergeEmptyPatchKeepsList` and `OfflineSaleShowsNewStock`.
- `EmployeeDashboard.Persist` (frontend/src/pages/EmployeeDashboard.jsx:23-28), whose contract only names what is written; the round trip is stated by `RestoreAfterPersist`.
- `SuperadminDashboard.Pie` and `SuperadminDashboard.Bucket` (frontend/src/pages/SuperadminDashboard.jsx:154-168), through `BucketLayout`, `BucketTotal`, `PieShape` and `PieShown`.

## Left out

- Background refresh in `getJoints` when the cache is hit: it races with later calls and writes after the call returns. The model returns the cache and leaves it unchanged.
- Entries queued while a replay is running: there is no concurrency in the model.
- The server's `GET` handlers beyond their envelopes, and `utc_to_local`: they only format time.
- Password hashing and its checker: these are the parameters `hashed` and `check`.
- JWT, the auth context and `userService`/`auth`/`SaleService`: they are outside the core.
- The `Inventory` and `Joint` fields follow the routes, not the model files. `server/models/inventory.py:6-18` declares no `buying_price`, `sold_price` or `ended_at`. `server/models/joint.py:6-15` declares no `assigned_to`, `sold_price` or `ended_at`. Against those classes as written, the constructors at `server/routes/inventory.py:53-60` and `server/routes/joint.py:61-68` would raise a TypeError, and the reads at `server/routes/inventory.py:106` and `server/routes/joint.py:117` would raise an AttributeError. Every create and update would then answer 500. The model assumes the columns the routes use exist.
- `sale.py` and `debt.py`, the seed script and `app.py` wiring, and the SQLAlchemy models beyond the unique username: they are outside the core.
- The profit/loss chart and all rendering: the chart components are presentational.
- `getJointsByEmployee`: it is outside the core.
- String-to-number parsing (`Number`, `parseInt`, `parseFloat`, `Math.floor`) and `NaN`: inputs enter the model already parsed, and an unparsable field is 0 where the page writes `|| 0`.
- The order of the trend's days: the dates are sorted with `Date` parsing, which is not modelled. The sort is a permutation, so the counts and their sum are unaffected.
- `toLowerCase`: only ASCII letters are folded.
- An explicit JSON `null` is not told apart from an absent key, except for `assigned_to` on the joint update, where the handler tells them apart.
- The 500 paths raised by database exceptions: they are not modelled.
- `DELETE` routes on the server: the repository defines none, so a replayed delete is only a request in the model.
- Spreading a non-object: the model spreads records and maps only.
- `InventoryRoutes.Update`: `float()` coercion of string quantities is not modelled; quantities arrive as numbers.
- `EmployeeDashboard.Sell`: it requires the row to carry a count. The page only offers the sale on listed rows, and those all have a positive count.
- `JointService.UpdateJoint`: the `PUT` body the service sends is not modelled; the cache takes the server's reply, so the body does not reach the result.
- `SuperadminDashboard.SortDescending`: the order of slices of equal size is not stated, so which of two tied lots enters the top six is left open.
- `JointsPage.SellCounted`: it reads the typed sold price as the sale's total amount. The page's label does not say whether it is per joint.

## Findings

| source | as written | input that shows it | evidently intended | confidence | as-written member | corrected member |
|---|---|---|---|---|---|---|
| frontend/src/Service/InventoryService.jsx:35-41 | a failed replay returns without touching the queue, so the requests confirmed before the failure stay queued | queue [create, delete]; the delete fails once, then succeeds | drop the confirmed prefix and keep the rest | not executed; high | InventoryService.CreateIsPostedTwice | InventoryService.DrainManyConserves |
| frontend/src/Service/JointService.jsx:27-32 | a non-array body becomes `[]`, but the server sends `{joints: [...]}` | any non-empty server list read with an empty cache | unwrap `joints` | not executed; high | JointService.ServerListIsDropped | JointService.UnwrappedReadReturnsServerList |
| frontend/src/pages/Inventory.jsx:98-101 | the sale sends `grams_available`, which the update route does not read, and no `quantity_sold` | a 10 g lot with 4 g sold stays at 10 g on the server | send `quantity_sold` so the server lowers the stock | not executed; high | Integration.FourGramsSoldStayInStock | Integration.CorrectedSaleLowersStock |
| frontend/src/pages/JointsPage.jsx:134-138 | the sale sends `sold_qty`, which the joint update route does not read, so the count never drops, and `sold_price` replaces the takings | a batch of 5 with 100 taken; 2 sold for 40 leaves 5 and takings of 40 | send the lowered `joints_count` and the accumulated takings, as the employee dashboard does | not executed; medium | Integration.TwoSoldStillFive | Integration.CountedSaleLowersCount |
| frontend/src/pages/Inventory.jsx:259-260 | Next is enabled on page 1 when there are 0 pages, and `Math.min(2, 0)` moves to page 0 | an empty inventory list, or filters that match nothing | never go below page 1 | not executed; low | InventoryPage.NextOnEmptyListLeavesPageRange | InventoryPage.NavigationStaysInRange |

=== FILE: employee_dashboard.dfy ===
/**
 * The employee dashboard: the batches assigned to the signed-in employee,
 * the per-row sale form, the list after a sale, and the day's running
 * totals kept in local storage for the current date only.
 */
module EmployeeDashboard {

  import opened Wrappers
  import opened PageRecords
  import Seqs

  /** `String(j.assigned_to) === String(employeeId) && j.joints_count > 0`. */
  function Mine(employee: Assignee): JointRow -> bool
  {
    (j: JointRow) => Text(j.assignedTo) == Text(employee) && j.jointsCount.GetOr(0) > 0
  }

  /** The rows listed: nothing is fetched while the employee id is falsy. */
  function Listed(all: seq<JointRow>, employee: Assignee): (r: seq<JointRow>)
    ensures !AssigneeTruthy(employee) ==> r == []
    ensures Seqs.IsSubsequence(r, all)
    ensures forall i :: 0 <= i < |r| ==> Text(r[i].assignedTo) == Text(employee) && r[i].jointsCount.GetOr(0) > 0
    ensures AssigneeTruthy(employee) ==>
      forall i :: 0 <= i < |all| && Text(all[i].assignedTo) == Text(employee) && all[i].jointsCount.GetOr(0) > 0 ==> all[i] in r
    ensures AssigneeTruthy(employee) ==>
      forall j :: multiset(r)[j] ==
        (if Text(j.assignedTo) == Text(employee) && j.jointsCount.GetOr(0) > 0 then multiset(all)[j] else 0)
  {
    if AssigneeTruthy(employee) then
      Seqs.FilterIsSubsequence(all, Mine(employee));
      Seqs.FilterCounts(all, Mine(employee));
      Seqs.Filter(all, Mine(employee))
    else []
  }

  /** A decimal text never reads "null". */
  lemma IntTextIsNotNull(n: int)
    ensures IntText(n) != "null"
  {
    var t := IntText(n);
    if n < 0 {
      assert t[1] == NatText(-n)[0];
      assert '0' <= t[1] <= '9';
    } else {
      assert '0' <= t[0] <= '9';
    }
  }

  /**
   * The comparison goes through `String`, so a batch stored with numeric id
   * `n` is listed for the employee whether the id in hand is the number or
   * the text read back from storage; an unassigned batch is listed for
   * neither. User ids start at 1, hence `n != 0`: the number 0 is falsy and
   * lists nothing, while its text "0" is truthy and lists.
   */
  lemma NumericAndTextIdsAgree(all: seq<JointRow>, n: int, i: int)
    requires n != 0
    requires 0 <= i < |all| && all[i].jointsCount.GetOr(0) > 0
    ensures all[i].assignedTo == ById(n) ==> all[i] in Listed(all, ById(n)) && all[i] in Listed(all, ByText(IntText(n)))
    ensures all[i].assignedTo == Unassigned ==> all[i] !in Listed(all, ById(n)) && all[i] !in Listed(all, ByText(IntText(n)))
  {
    assert IntText(n) != "" by { if n < 0 {} }
    IntTextIsNotNull(n);
  }

  // -------------------------------------------------------------- sale

  /** The update body a sale sends. */
  datatype SalePayload = SalePayload(jointsCount: int, soldPrice: real, soldQty: int, soldBy: Assignee)

  datatype SaleOutcome = InvalidSale | TooMany | SendSale(payload: SalePayload)

  /**
   * The Sell button on a listed row (listed rows always carry a count);
   * `bluntsSold` and `price` are the parsed inputs, 0 when unparsable.
   */
  function Sell(joint: JointRow, bluntsSold: int, price: real, employee: Assignee): (r: SaleOutcome)
    requires joint.jointsCount.Some?
    ensures r.InvalidSale? <==> bluntsSold <= 0 || price <= 0.0
    ensures r.TooMany? <==> bluntsSold > 0 && price > 0.0 && bluntsSold > joint.jointsCount.value
    ensures r.SendSale? ==>
      && 0 <= r.payload.jointsCount < joint.jointsCount.value
      && r.payload.jointsCount + r.payload.soldQty == joint.jointsCount.value
      && r.payload.soldQty == bluntsSold
      && r.payload.soldPrice == joint.soldPrice.GetOr(0.0) + price * (bluntsSold as real)
      && r.payload.soldPrice > joint.soldPrice.GetOr(0.0)
      && r.payload.soldBy == employee
  {
    if bluntsSold <= 0 || price <= 0.0 then InvalidSale
    else if bluntsSold > joint.jointsCount.value then TooMany
    else SendSale(SalePayload(joint.jointsCount.value - bluntsSold,
                              joint.soldPrice.GetOr(0.0) + price * (bluntsSold as real),
                              bluntsSold, employee))
  }

  function Replace(rows: seq<JointRow>, id: int, updated: JointRow): (r: seq<JointRow>)
    ensures |r| == |rows|
    ensures forall i :: 0 <= i < |rows| ==> r[i] == (if rows[i].id == id then updated else rows[i])
  {
    if |rows| == 0 then [] else [if rows[0].id == id then updated else rows[0]] + Replace(rows[1..], id, updated)
  }

  function InStock(): JointRow -> bool
  {
    (j: JointRow) => j.jointsCount.GetOr(0) > 0
  }

  /** The list after the server answers a sale: the row is replaced, emptied rows drop out. */
  function AfterSale(rows: seq<JointRow>, id: int, updated: JointRow): (r: seq<JointRow>)
    ensures forall i :: 0 <= i < |r| ==> r[i].jointsCount.GetOr(0) > 0
    ensures forall i :: 0 <= i < |r| ==> r[i] == updated || (r[i] in rows && r[i].id != id)
    ensures forall i :: 0 <= i < |rows| && rows[i].id != id && rows[i].jointsCount.GetOr(0) > 0 ==> rows[i] in r
    ensures updated.jointsCount.GetOr(0) <= 0 ==> updated !in r
    ensures updated.jointsCount.GetOr(0) > 0 && (exists i :: 0 <= i < |rows| && rows[i].id == id) ==> updated in r
    ensures |r| <= |rows|
    ensures Seqs.IsSubsequence(r, Replace(rows, id, updated))
    ensures forall j :: multiset(r)[j] == (if j.jointsCount.GetOr(0) > 0 then multiset(Replace(rows, id, updated))[j] else 0)
  {
    AfterSaleMembers(rows, id, updated);
    AfterSaleShape(rows, id, updated);
    Seqs.Filter(Replace(rows, id, updated), InStock())
  }

  /** The filtered, replaced list: in stock, no longer than before, and the replaced list minus its emptied rows. */
  lemma AfterSaleShape(rows: seq<JointRow>, id: int, updated: JointRow)
    ensures var r := Seqs.Filter(Replace(rows, id, updated), InStock());
      && (forall i :: 0 <= i < |r| ==> r[i].jointsCount.GetOr(0) > 0)
      && (updated.jointsCount.GetOr(0) <= 0 ==> updated !in r)
      && |r| <= |rows|
      && Seqs.IsSubsequence(r, Replace(rows, id, updated))
      && (forall j :: multiset(r)[j] == (if j.jointsCount.GetOr(0) > 0 then multiset(Replace(rows, id, updated))[j] else 0))
  {
    Seqs.FilterIsSubsequence(Replace(rows, id, updated), InStock());
    Seqs.FilterCounts(Replace(rows, id, updated), InStock());
  }

  /** Which rows the filtered, replaced list holds. */
  lemma AfterSaleMembers(rows: seq<JointRow>, id: int, updated: JointRow)
    ensures var r := Seqs.Filter(Replace(rows, id, updated), InStock());
      && (forall i :: 0 <= i < |r| ==> r[i] == updated || (r[i] in rows && r[i].id != id))
      && (forall i :: 0 <= i < |rows| && rows[i].id != id && rows[i].jointsCount.GetOr(0) > 0 ==> rows[i] in r)
      && (updated.jointsCount.GetOr(0) > 0 && (exists i :: 0 <= i < |rows| && rows[i].id == id) ==> updated in r)
  {
    var replaced := Replace(rows, id, updated);
    var r := Seqs.Filter(replaced, InStock());
    if updated.jointsCount.GetOr(0) > 0 && (exists i :: 0 <= i < |rows| && rows[i].id == id) {
      var i :| 0 <= i < |rows| && rows[i].id == id;
      assert replaced[i] == updated;
    }
    forall i | 0 <= i < |r| ensures r[i] == updated || (r[i] in rows && r[i].id != id) {
      var k :| 0 <= k < |replaced| && replaced[k] == r[i];
    }
    forall i | 0 <= i < |rows| && rows[i].id != id && rows[i].jointsCount.GetOr(0) > 0 ensures rows[i] in r {
      assert replaced[i] == rows[i];
    }
  }

  // ---------------------------------------------------------- day totals

  datatype Daily = Daily(totalSold: int, totalValue: real)

  const NoSales := Daily(0, 0.0)

  /** The day's totals after one sale. */
  function Record(d: Daily, qty: int, price: real): (r: Daily)
    ensures r.totalSold - d.totalSold == qty
    ensures r.totalValue - d.totalValue == price * (qty as real)
  {
    Daily(d.totalSold + qty, d.totalValue + price * (qty as real))
  }

  /** A sale as the totals see it: quantity and unit price. */
  datatype Sale = Sale(qty: int, price: real)

  function RecordAll(d: Daily, sales: seq<Sale>): Daily
    decreases |sales|
  {
    if |sales| == 0 then d else RecordAll(Record(d, sales[0].qty, sales[0].price), sales[1..])
  }

  function QtyOf(s: Sale): int { s.qty }

  function AmountOf(s: Sale): real { s.price * (s.qty as real) }

  /** After a run of sales the totals hold the sold count and the sold value. */
  lemma {:induction false} RecordAllSums(d: Daily, sales: seq<Sale>)
    ensures RecordAll(d, sales).totalSold == d.totalSold + Seqs.SumInt(sales, QtyOf)
    ensures RecordAll(d, sales).totalValue == d.totalValue + Seqs.SumReal(sales, AmountOf)
    decreases |sales|
  {
    if |sales| > 0 {
      RecordAllSums(Record(d, sales[0].qty, sales[0].price), sales[1..]);
    }
  }

  /** What local storage holds: the date string of the day and the totals. */
  datatype Saved = Saved(date: string, data: Daily)

  /** Saving the totals for today's date. */
  function Persist(d: Daily, today: string): (r: Saved)
    ensures r.date == today && r.data == d
  {
    Saved(today, d)
  }

  /** Loading on mount: the saved totals only when they are from today. */
  function Restore(saved: Option<Saved>, today: string): (r: Daily)
    ensures saved.Some? && saved.value.date == today ==> r == saved.value.data
    ensures (saved.None? || saved.value.date != today) ==> r == NoSales
  {
    match saved
    case Some(s) => if s.date == today then s.data else NoSales
    case None => NoSales
  }

  /** Totals survive a reload on the same day and start over on another. */
  lemma RestoreAfterPersist(d: Daily, saved: string, today: string)
    ensures Restore(Some(Persist(d, saved)), today) == (if saved == today then d else NoSales)
  {
  }

  // ------------------------------------------------------ remaining column

  /** The input handler: a negative value is ignored. */
  function ChangeEntry(current: int, value: int): (r: int)
    ensures value >= 0 ==> r == value
    ensures value < 0 ==> r == current
  {
    if value < 0 then current else value
  }

  /** The "Joints Available" column: count minus the typed quantity, never negative. */
  function Remaining(count: Option<int>, typed: int): (r: int)
    ensures r >= 0
    ensures typed <= count.GetOr(0) ==> r == count.GetOr(0) - typed
    ensures typed >= 0 && count.GetOr(0) >= 0 ==> r <= count.GetOr(0)
    ensures typed >= count.GetOr(0) ==> r == 0
  {
    var left := count.GetOr(0) - typed;
    if left >= 0 then left else 0
  }

  function Typed(start: int, edits: seq<int>): int
    decreases |edits|
  {
    if |edits| == 0 then start else Typed(ChangeEntry(start, edits[0]), edits[1..])
  }

  /** Starting from a cleared field, no run of edits makes the typed quantity negative. */
  lemma {:induction false} EditsStayNonNegative(start: int, edits: seq<int>)
    requires start >= 0
    ensures Typed(start, edits) >= 0
    decreases |edits|
  {
    if |edits| > 0 {
      EditsStayNonNegative(ChangeEntry(start, edits[0]), edits[1..]);
    }
  }

  /** So the column never shows more than the batch holds. */
  lemma RemainingNeverExceedsCount(count: Option<int>, edits: seq<int>)
    requires count.GetOr(0) >= 0
    ensures 0 <= Remaining(count, Typed(0, edits)) <= count.GetOr(0)
  {
    EditsStayNonNegative(0, edits);
  }
}

=== FILE: integration.dfy ===
/**
 * What the server does with the bodies the pages send: each page payload
 * is read the way the Flask handlers read JSON keys (an unknown key is
 * ignored, a missing one is absent), then handed to the route model.
 */
module Integration {

  import opened Wrappers
  import opened Stock
  import PageRecords
  import InventoryPage
  import JointsPage
  import EmployeeDashboard
  import InventoryRoutes
  import JointRoutes

  /** The page's row agrees with the server's lot on the fields the page reads. */
  predicate SameLot(row: PageRecords.Lot, inv: Inventory)
  {
    row.gramsAvailable == inv.gramsAvailable && row.soldPrice == inv.soldPrice
  }

  /** The page's batch row agrees with the server's batch. */
  predicate SameJoint(row: PageRecords.JointRow, j: Joint)
  {
    row.jointsCount == Some(j.jointsCount) && row.soldPrice == Some(j.soldPrice)
  }

  // ------------------------------------------------------ inventory create

  /** The create form's body as the inventory create route reads it. */
  function CreateInventoryBody(p: InventoryPage.CreatePayload): InventoryRoutes.CreateRequest
  {
    InventoryRoutes.CreateRequest(Some(p.strainName), Some(p.pricePerGram), Some(p.gramsAvailable), Some(p.buyingPrice), None)
  }

  /** A form the page lets through is always accepted; a lot entered with 0 g is closed at once. */
  lemma AcceptedFormCreatesLot(s: Store, f: InventoryPage.Form, now: int)
    requires InventoryPage.AddInventory(f).Some?
    ensures var r := InventoryRoutes.Create(s, CreateInventoryBody(InventoryPage.AddInventory(f).value), now);
      && r.status == 201
      && r.body.inventory.gramsAvailable == f.gramsAvailable.value
      && (r.body.inventory.endedAt.Some? <==> f.gramsAvailable.value == 0.0)
  {
  }

  // ------------------------------------------------------- inventory sale

  /** The row's sale body as written: `grams_available` is not a key the update route reads. */
  function SoldPayloadAsRead(p: InventoryPage.SoldPayload): InventoryRoutes.UpdateRequest
  {
    InventoryRoutes.UpdateRequest(false, None, Some(p.soldPrice), None, None, None)
  }

  /** As written, a sale recorded from the inventory page leaves the lot unchanged on the server. */
  lemma PageSaleIsIgnored(s: Store, lots: seq<PageRecords.Lot>, id: int, soldAmount: real, soldPrice: real, now: int)
    requires id in s.inventories
    requires InventoryPage.SoldUpdate(lots, id, soldAmount, soldPrice).Some?
    ensures var r := InventoryRoutes.Update(s, id, SoldPayloadAsRead(InventoryPage.SoldUpdate(lots, id, soldAmount, soldPrice).value), now);
      r.status == 200 && r.store == s && r.body.inventory == s.inventories[id]
  {
    var r := InventoryRoutes.Update(s, id, SoldPayloadAsRead(InventoryPage.SoldUpdate(lots, id, soldAmount, soldPrice).value), now);
    assert r.body.inventory == s.inventories[id];
    assert s.inventories[id := s.inventories[id]] == s.inventories;
  }

  /** A concrete lot: 10 g on the page and on the server, 4 g sold, the server still holds 10 g. */
  lemma FourGramsSoldStayInStock()
    ensures var s := Store(map[1 := Inventory("Haze", 5.0, 10.0, 30.0, None, None)], map[], 2, 1);
      var lots := [PageRecords.Lot(1, "Haze", 10.0, 5.0, 30.0, None)];
      var body := InventoryPage.SoldUpdate(lots, 1, 4.0, 20.0);
      && body == Some(InventoryPage.SoldPayload(6.0, 20.0))
      && InventoryRoutes.Update(s, 1, SoldPayloadAsRead(body.value), 0).store.inventories[1].gramsAvailable == 10.0
  {
    var s := Store(map[1 := Inventory("Haze", 5.0, 10.0, 30.0, None, None)], map[], 2, 1);
    var lots := [PageRecords.Lot(1, "Haze", 10.0, 5.0, 30.0, None)];
    assert PageRecords.FindLot(lots, 1) == Some(lots[0]);
    PageSaleIsIgnored(s, lots, 1, 4.0, 20.0, 0);
  }

  /** The corrected sale body as the update route reads it. */
  function SaleBodyAsRead(b: InventoryPage.SaleBody): InventoryRoutes.UpdateRequest
  {
    InventoryRoutes.UpdateRequest(false, Some(b.quantitySold), b.soldPrice, None, None, None)
  }

  /**
   * With the corrected body the server lowers the lot by exactly the grams
   * sold and adds the typed price to its takings; selling more than the
   * lot holds is refused and changes nothing.
   */
  lemma CorrectedSaleLowersStock(s: Store, lots: seq<PageRecords.Lot>, id: int, soldAmount: real, soldPrice: real, now: int)
    requires id in s.inventories
    requires InventoryPage.SaleRequest(lots, id, soldAmount, soldPrice).Some?
    ensures var inv := s.inventories[id];
      var r := InventoryRoutes.Update(s, id, SaleBodyAsRead(InventoryPage.SaleRequest(lots, id, soldAmount, soldPrice).value), now);
      && (soldAmount <= inv.gramsAvailable ==>
            && r.status == 200
            && r.store.inventories[id].gramsAvailable == inv.gramsAvailable - soldAmount
            && r.store.inventories[id].soldPrice ==
                 (if soldPrice > 0.0 then Some(inv.soldPrice.GetOr(0.0) + soldPrice) else inv.soldPrice))
      && (soldAmount > inv.gramsAvailable ==> r.status == 400 && r.store == s)
  {
  }

  // ------------------------------------------------------------ joint add

  /** The add form's body as the joint create route reads it. */
  function AddBodyAsRead(p: JointsPage.AddPayload): JointRoutes.CreateRequest
  {
    JointRoutes.CreateRequest(Some(p.inventoryId), Some(p.gramsUsed), Some(p.jointsCount), Some(p.pricePerJoint),
                              if p.assignedTo.ById? then Some(p.assignedTo.n) else None, Some(p.soldPrice))
  }

  /**
   * A batch the page lets through is created whenever the page's view of
   * the lot is current: the lot loses exactly the grams used, and the new
   * batch is unassigned with nothing sold.
   */
  lemma AcceptedBatchIsCreated(s: Store, lotId: int, lot: PageRecords.Lot, grams: real, count: int, price: real, now: int)
    requires lotId != 0 && lotId in s.inventories && SameLot(lot, s.inventories[lotId])
    requires JointsPage.AddJoint(lotId, Some(lot), grams, count, price).SendAdd?
    ensures var r := JointRoutes.Create(s, AddBodyAsRead(JointsPage.AddJoint(lotId, Some(lot), grams, count, price).payload), now);
      && r.status == 201
      && r.store.inventories[lotId].gramsAvailable == s.inventories[lotId].gramsAvailable - grams
      && r.body.joint.assignedTo.None?
      && r.body.joint.soldPrice == 0.0
      && r.body.joint.jointsCount == count
  {
  }

  // ---------------------------------------------------------- joint sales

  /** The joints page's sale body as the joint update route reads it: only `sold_price` is a known key. */
  function JointSaleAsRead(p: JointsPage.SalePayload): JointRoutes.UpdateRequest
  {
    JointRoutes.UpdateRequest(None, None, None, None, Some(p.soldPrice))
  }

  /** As written, a sale from the joints page keeps the batch's count and overwrites its takings. */
  lemma JointsPageSaleKeepsCount(s: Store, rows: seq<PageRecords.JointRow>, jointId: int, toSell: int, soldPrice: real,
                                 employee: PageRecords.Assignee, now: int)
    requires JointRoutes.Found(s, jointId)
    requires JointsPage.Sell(rows, jointId, toSell, soldPrice, employee).SendSale?
    ensures var r := JointRoutes.Update(s, jointId, JointSaleAsRead(JointsPage.Sell(rows, jointId, toSell, soldPrice, employee).payload), now);
      && r.status == 200
      && r.store.joints[jointId].jointsCount == s.joints[jointId].jointsCount
      && r.store.joints[jointId].soldPrice == soldPrice
  {
  }

  /** A concrete batch of 5 with 100 taken: selling 2 for 40 leaves 5 on the server and takings of 40. */
  lemma TwoSoldStillFive()
    ensures var s := Store(map[1 := Inventory("Haze", 5.0, 10.0, 30.0, None, None)],
                           map[7 := Joint(1, 2.0, 5, 50.0, None, 100.0)], 2, 8);
      var rows := [PageRecords.JointRow(7, 1, Some(5), Some(50.0), Some(100.0), PageRecords.Unassigned)];
      var out := JointsPage.Sell(rows, 7, 2, 40.0, PageRecords.ById(3));
      && out.SendSale?
      && JointRoutes.Update(s, 7, JointSaleAsRead(out.payload), 0).store.joints[7] == Joint(1, 2.0, 5, 50.0, None, 40.0)
  {
    var rows := [PageRecords.JointRow(7, 1, Some(5), Some(50.0), Some(100.0), PageRecords.Unassigned)];
    assert PageRecords.FindJoint(rows, 7) == Some(rows[0]);
  }

  /** The corrected joints-page sale body as the update route reads it. */
  function CountedSaleAsRead(c: JointsPage.CountedSale): JointRoutes.UpdateRequest
  {
    JointRoutes.UpdateRequest(None, Some(c.jointsCount), None, None, Some(c.soldPrice))
  }

  /** With the corrected body the batch loses exactly the joints sold and keeps its earlier takings. */
  lemma CountedSaleLowersCount(s: Store, rows: seq<PageRecords.JointRow>, jointId: int, toSell: int, soldPrice: real, now: int)
    requires JointRoutes.Found(s, jointId)
    requires JointsPage.SellCounted(rows, jointId, toSell, soldPrice).Some?
    requires SameJoint(PageRecords.FindJoint(rows, jointId).value, s.joints[jointId])
    ensures var r := JointRoutes.Update(s, jointId, CountedSaleAsRead(JointsPage.SellCounted(rows, jointId, toSell, soldPrice).value), now);
      && r.status == 200
      && r.store.joints[jointId].jointsCount == s.joints[jointId].jointsCount - toSell >= 0
      && r.store.joints[jointId].soldPrice == s.joints[jointId].soldPrice + soldPrice
  {
  }

  /** The employee dashboard's sale body as the update route reads it. */
  function EmployeeSaleAsRead(p: EmployeeDashboard.SalePayload): JointRoutes.UpdateRequest
  {
    JointRoutes.UpdateRequest(None, Some(p.jointsCount), None, None, Some(p.soldPrice))
  }

  /** A sale from the employee dashboard lowers the server's count by the quantity and adds price times quantity. */
  lemma EmployeeSaleLowersCount(s: Store, joint: PageRecords.JointRow, qty: int, price: real,
                                employee: PageRecords.Assignee, now: int)
    requires JointRoutes.Found(s, joint.id) && SameJoint(joint, s.joints[joint.id])
    requires EmployeeDashboard.Sell(joint, qty, price, employee).SendSale?
    ensures var r := JointRoutes.Update(s, joint.id, EmployeeSaleAsRead(EmployeeDashboard.Sell(joint, qty, price, employee).payload), now);
      && r.status == 200
      && r.store.joints[joint.id].jointsCount == s.joints[joint.id].jointsCount - qty >= 0
      && r.store.joints[joint.id].soldPrice == s.joints[joint.id].soldPrice + price * (qty as real)
      && r.store.inventories == s.inventories
  {
    var r := JointRoutes.Update(s, joint.id, EmployeeSaleAsRead(EmployeeDashboard.Sell(joint, qty, price, employee).payload), now);
    var invId := s.joints[joint.id].inventoryId;
    assert s.inventories[invId := s.inventories[invId]] == s.inventories;
  }
}

=== FILE: inventory_page.dfy ===
/**
 * The inventory manager page: the filter bar, five-row pagination, the
 * "grams sold" update, merging the updated lot into the list, and the
 * create-form guard.
 */
module InventoryPage {

  import opened Wrappers
  import opened PageRecords
  import Seqs

  // ---------------------------------------------------------------- filters

  /** `toLowerCase` on the ASCII letters; other characters are kept. */
  function Lower(c: char): (r: char)
    ensures 'A' <= c <= 'Z' ==> r as int == c as int + 32
    ensures !('A' <= c <= 'Z') ==> r == c
  {
    if 'A' <= c <= 'Z' then (c as int + 32) as char else c
  }

  function ToLower(s: string): (r: string)
    ensures |r| == |s|
    ensures forall i :: 0 <= i < |s| ==> r[i] == Lower(s[i])
  {
    if |s| == 0 then [] else [Lower(s[0])] + ToLower(s[1..])
  }

  /** `hay.includes(needle)`, scanning from the left. */
  predicate Includes(hay: string, needle: string)
    decreases |hay|
  {
    |needle| <= |hay| && (hay[..|needle|] == needle || (|hay| > 0 && Includes(hay[1..], needle)))
  }

  /** The reference meaning of `includes`: the needle occurs at some offset. */
  ghost predicate OccursAt(hay: string, needle: string, k: int)
  {
    0 <= k && k + |needle| <= |hay| && hay[k..k + |needle|] == needle
  }

  lemma {:induction false} IncludesMeansOccurs(hay: string, needle: string)
    ensures Includes(hay, needle) <==> exists k :: OccursAt(hay, needle, k)
    decreases |hay|
  {
    if Includes(hay, needle) {
      if hay[..|needle|] == needle {
        assert OccursAt(hay, needle, 0);
      } else {
        IncludesMeansOccurs(hay[1..], needle);
        var k :| OccursAt(hay[1..], needle, k);
        assert hay[k + 1..k + 1 + |needle|] == hay[1..][k..k + |needle|];
        assert OccursAt(hay, needle, k + 1);
      }
    } else if exists k :: OccursAt(hay, needle, k) {
      var k :| OccursAt(hay, needle, k);
      if k > 0 {
        assert hay[1..][k - 1..k - 1 + |needle|] == hay[k..k + |needle|];
        assert OccursAt(hay[1..], needle, k - 1);
        IncludesMeansOccurs(hay[1..], needle);
      }
    }
  }

  /**
   * The five filter inputs. An empty input is `None`; a filled one is the
   * number it parses to (so "0" is a live bound).
   */
  datatype Filters = Filters(
    search: string,
    minGrams: Option<real>,
    maxGrams: Option<real>,
    minPrice: Option<real>,
    maxPrice: Option<real>)

  const NoFilters := Filters("", None, None, None, None)

  predicate SearchOk(f: Filters, lot: Lot)
  {
    f.search == "" || Includes(ToLower(lot.strainName), ToLower(f.search))
  }

  predicate MinGramsOk(f: Filters, lot: Lot)
  {
    f.minGrams.None? || lot.gramsAvailable >= f.minGrams.value
  }

  predicate MaxGramsOk(f: Filters, lot: Lot)
  {
    f.maxGrams.None? || lot.gramsAvailable <= f.maxGrams.value
  }

  predicate MinPriceOk(f: Filters, lot: Lot)
  {
    f.minPrice.None? || lot.pricePerGram >= f.minPrice.value
  }

  predicate MaxPriceOk(f: Filters, lot: Lot)
  {
    f.maxPrice.None? || lot.pricePerGram <= f.maxPrice.value
  }

  /** Whether one lot passes every active filter. */
  predicate Passes(f: Filters, lot: Lot)
  {
    SearchOk(f, lot) && MinGramsOk(f, lot) && MaxGramsOk(f, lot) && MinPriceOk(f, lot) && MaxPriceOk(f, lot)
  }

  /** One filter stage: applied only when its input is filled. */
  function Stage(lots: seq<Lot>, active: bool, keep: Lot -> bool): seq<Lot>
  {
    if active then Seqs.Filter(lots, keep) else lots
  }

  /** The test of each stage, as a value the stages share. */
  function Test(f: Filters, k: nat): Lot -> bool
  {
    if k == 0 then l => SearchOk(f, l)
    else if k == 1 then l => MinGramsOk(f, l)
    else if k == 2 then l => MaxGramsOk(f, l)
    else if k == 3 then l => MinPriceOk(f, l)
    else l => MaxPriceOk(f, l)
  }

  /** The page state the filter effect sets: the visible list, page reset to 1. */
  datatype View = View(filtered: seq<Lot>, page: int)

  /** The filter effect, stage by stage in the page's order. */
  function Refilter(lots: seq<Lot>, f: Filters): (v: View)
    ensures v.page == 1
  {
    var a := Stage(lots, f.search != "", Test(f, 0));
    var b := Stage(a, f.minGrams.Some?, Test(f, 1));
    var c := Stage(b, f.maxGrams.Some?, Test(f, 2));
    var d := Stage(c, f.minPrice.Some?, Test(f, 3));
    var e := Stage(d, f.maxPrice.Some?, Test(f, 4));
    View(e, 1)
  }

  /** Passing the first `k` stages. */
  function Upto(f: Filters, k: nat): Lot -> bool
  {
    if k == 1 then l => SearchOk(f, l)
    else if k == 2 then l => SearchOk(f, l) && MinGramsOk(f, l)
    else if k == 3 then l => SearchOk(f, l) && MinGramsOk(f, l) && MaxGramsOk(f, l)
    else if k == 4 then l => SearchOk(f, l) && MinGramsOk(f, l) && MaxGramsOk(f, l) && MinPriceOk(f, l)
    else l => Passes(f, l)
  }

  /** The staged filters select exactly the lots passing every filter, in order. */
  lemma RefilterIsOneFilter(lots: seq<Lot>, f: Filters)
    ensures Refilter(lots, f).filtered == Seqs.Filter(lots, l => Passes(f, l))
  {
    var a := Stage(lots, f.search != "", Test(f, 0));
    assert a == Seqs.Filter(lots, Upto(f, 1)) by {
      StageIsFilter(lots, f.search != "", Test(f, 0));
      Seqs.FilterSameTest(lots, Test(f, 0), Upto(f, 1));
    }
    var b := Stage(a, f.minGrams.Some?, Test(f, 1));
    assert b == Seqs.Filter(lots, Upto(f, 2)) by {
      StageIsFilter(a, f.minGrams.Some?, Test(f, 1));
      Seqs.FilterFilter(lots, Upto(f, 1), Test(f, 1), Upto(f, 2));
    }
    var c := Stage(b, f.maxGrams.Some?, Test(f, 2));
    assert c == Seqs.Filter(lots, Upto(f, 3)) by {
      StageIsFilter(b, f.maxGrams.Some?, Test(f, 2));
      Seqs.FilterFilter(lots, Upto(f, 2), Test(f, 2), Upto(f, 3));
    }
    var d := Stage(c, f.minPrice.Some?, Test(f, 3));
    assert d == Seqs.Filter(lots, Upto(f, 4)) by {
      StageIsFilter(c, f.minPrice.Some?, Test(f, 3));
      Seqs.FilterFilter(lots, Upto(f, 3), Test(f, 3), Upto(f, 4));
    }
    var e := Stage(d, f.maxPrice.Some?, Test(f, 4));
    assert e == Seqs.Filter(lots, l => Passes(f, l)) by {
      StageIsFilter(d, f.maxPrice.Some?, Test(f, 4));
      Seqs.FilterFilter(lots, Upto(f, 4), Test(f, 4), l => Passes(f, l));
    }
  }

  /** A stage that is off keeps everything, so it is the same filter either way. */
  lemma StageIsFilter(lots: seq<Lot>, active: bool, keep: Lot -> bool)
    requires !active ==> forall l :: keep(l)
    ensures Stage(lots, active, keep) == Seqs.Filter(lots, keep)
  {
    if !active {
      Seqs.FilterAll(lots, keep);
    }
  }

  /** The visible rows keep their order, pass every filter, and none that passes is dropped. */
  lemma RefilterSelects(lots: seq<Lot>, f: Filters)
    ensures Seqs.IsSubsequence(Refilter(lots, f).filtered, lots)
    ensures forall i :: 0 <= i < |Refilter(lots, f).filtered| ==> Passes(f, Refilter(lots, f).filtered[i])
    ensures forall i :: 0 <= i < |lots| && Passes(f, lots[i]) ==> lots[i] in Refilter(lots, f).filtered
  {
    RefilterIsOneFilter(lots, f);
    Seqs.FilterIsSubsequence(lots, l => Passes(f, l));
  }

  /** With every input empty the whole list is shown. */
  lemma EmptyFiltersShowAll(lots: seq<Lot>)
    ensures Refilter(lots, NoFilters).filtered == lots
  {
  }

  // ------------------------------------------------------------- pagination

  const ItemsPerPage := 5

  /** One end of `Array.prototype.slice`: negative counts from the end, then clamp. */
  function SliceIndex(n: nat, k: int): (r: nat)
    ensures r <= n
    ensures 0 <= k <= n ==> r == k
  {
    if k < 0 then (if n + k < 0 then 0 else n + k) else if k > n then n else k
  }

  /** `s.slice(start, end)`. */
  function Slice<T>(s: seq<T>, start: int, end: int): (r: seq<T>)
    ensures |r| <= |s|
  {
    var a := SliceIndex(|s|, start);
    var b := SliceIndex(|s|, end);
    if b <= a then [] else s[a..b]
  }

  /** The rows on page `page`. */
  function PageRows<T>(items: seq<T>, page: int): seq<T>
  {
    Slice(items, page * ItemsPerPage - ItemsPerPage, page * ItemsPerPage)
  }

  /** `Math.ceil(n / 5)`. */
  function TotalPages(n: nat): (r: nat)
    ensures (r - 1) * ItemsPerPage < n <= r * ItemsPerPage || (n == 0 && r == 0)
  {
    (n + ItemsPerPage - 1) / ItemsPerPage
  }

  function Min(a: int, b: int): int { if a <= b then a else b }

  /** A page from 1 on is the matching window of at most five rows. */
  lemma PageIsWindow<T>(items: seq<T>, page: int)
    requires page >= 1
    ensures PageRows(items, page) == items[Min((page - 1) * ItemsPerPage, |items|)..Min(page * ItemsPerPage, |items|)]
    ensures |PageRows(items, page)| <= ItemsPerPage
    ensures page <= TotalPages(|items|) <==> |PageRows(items, page)| > 0
  {
  }

  /** Pages 1..k laid end to end. */
  function Pages<T>(items: seq<T>, k: nat): seq<T>
  {
    if k == 0 then [] else Pages(items, k - 1) + PageRows(items, k)
  }

  lemma {:induction false} PagesArePrefix<T>(items: seq<T>, k: nat)
    ensures Pages(items, k) == items[..Min(k * ItemsPerPage, |items|)]
  {
    if k > 0 {
      PagesArePrefix(items, k - 1);
      PageIsWindow(items, k);
      var a := Min((k - 1) * ItemsPerPage, |items|);
      var b := Min(k * ItemsPerPage, |items|);
      assert items[..a] + items[a..b] == items[..b];
    }
  }

  /** The pages 1..totalPages show every row once, in order. */
  lemma PagesCoverList<T>(items: seq<T>)
    ensures Pages(items, TotalPages(|items|)) == items
  {
    PagesArePrefix(items, TotalPages(|items|));
  }

  /** The Prev button. */
  function Prev(page: int): (r: int)
    ensures r >= 1
    ensures page > 1 ==> r == page - 1
    ensures page <= 1 ==> r == 1
  {
    if page - 1 >= 1 then page - 1 else 1
  }

  /** Whether the Next button is enabled. */
  predicate NextEnabled(page: int, total: nat)
  {
    page != total
  }

  /** The Next button as the page computes it: `Math.min(p + 1, totalPages)`. */
  function Next(page: int, total: nat): (r: int)
    ensures r <= total
    ensures page < total ==> r == page + 1
    ensures page >= total ==> r == total
  {
    Min(page + 1, total)
  }

  /** With an empty list, Next is enabled on page 1 and moves to page 0. */
  lemma NextOnEmptyListLeavesPageRange()
    ensures NextEnabled(1, TotalPages(0))
    ensures Next(1, TotalPages(0)) == 0
  {
  }

  /** The Next button clamped to a real page number. */
  function NextClamped(page: int, total: nat): (r: int)
    ensures r >= 1
    ensures 0 <= page < total ==> r == page + 1
    ensures 1 <= page ==> r <= page + 1
  {
    var n := Min(page + 1, total);
    if n >= 1 then n else 1
  }

  /** From any page in range, Prev and the clamped Next stay in range. */
  lemma NavigationStaysInRange(page: int, total: nat)
    requires 1 <= page <= (if total == 0 then 1 else total)
    ensures 1 <= Prev(page) <= (if total == 0 then 1 else total)
    ensures 1 <= NextClamped(page, total) <= (if total == 0 then 1 else total)
  {
  }

  // ---------------------------------------------------------- grams sold

  /** The body of the update request sent from a row. */
  datatype SoldPayload = SoldPayload(gramsAvailable: real, soldPrice: real)

  /**
   * The "Update" action of a row: nothing when the grams sold are not
   * positive, nothing when the id is not in the list (the lookup throws and
   * the error is swallowed), otherwise the new stock level and sale price.
   */
  function SoldUpdate(lots: seq<Lot>, id: int, soldAmount: real, soldPrice: real): (r: Option<SoldPayload>)
    ensures soldAmount <= 0.0 ==> r.None?
    ensures soldAmount > 0.0 ==> (r.Some? <==> FindLot(lots, id).Some?)
    ensures r.Some? ==>
      var lot := FindLot(lots, id).value;
      && 0.0 <= r.value.gramsAvailable <= (if lot.gramsAvailable >= 0.0 then lot.gramsAvailable else 0.0)
      && (soldAmount <= lot.gramsAvailable ==> r.value.gramsAvailable == lot.gramsAvailable - soldAmount)
      && (soldAmount > lot.gramsAvailable ==> r.value.gramsAvailable == 0.0)
      && r.value.soldPrice == (if soldPrice > 0.0 then soldPrice else lot.soldPrice.GetOr(0.0))
  {
    if soldAmount <= 0.0 then None
    else match FindLot(lots, id)
      case None => None
      case Some(lot) =>
        var left := lot.gramsAvailable - soldAmount;
        Some(SoldPayload(if left >= 0.0 then left else 0.0,
                         if soldPrice > 0.0 then soldPrice else lot.soldPrice.GetOr(0.0)))
  }

  /** A sale body in the keys the inventory update route reads. */
  datatype SaleBody = SaleBody(quantitySold: real, soldPrice: Option<real>)

  /**
   * The "Update" action sending the grams sold as `quantity_sold` and the
   * price only when one was typed, so the server both lowers the stock and
   * adds the price to the lot's takings.
   */
  function SaleRequest(lots: seq<Lot>, id: int, soldAmount: real, soldPrice: real): (r: Option<SaleBody>)
    ensures r.Some? <==> soldAmount > 0.0 && FindLot(lots, id).Some?
    ensures r.Some? ==> r.value.quantitySold == soldAmount > 0.0
    ensures r.Some? ==> (r.value.soldPrice.Some? <==> soldPrice > 0.0)
    ensures r.Some? && soldPrice > 0.0 ==> r.value.soldPrice == Some(soldPrice)
  {
    if soldAmount <= 0.0 || FindLot(lots, id).None? then None
    else Some(SaleBody(soldAmount, if soldPrice > 0.0 then Some(soldPrice) else None))
  }

  /** The fields of an update response's `inventory`; an absent field is `None`. */
  datatype Patch = Patch(
    id: Option<int>,
    strainName: Option<string>,
    gramsAvailable: Option<real>,
    pricePerGram: Option<real>,
    buyingPrice: Option<real>,
    soldPrice: Option<Option<real>>)

  const EmptyPatch := Patch(None, None, None, None, None, None)

  /** `{...lot, ...patch}`. */
  function Spread(lot: Lot, p: Patch): (r: Lot)
    ensures r.id == p.id.GetOr(lot.id)
    ensures r.strainName == p.strainName.GetOr(lot.strainName)
    ensures r.gramsAvailable == p.gramsAvailable.GetOr(lot.gramsAvailable)
    ensures r.pricePerGram == p.pricePerGram.GetOr(lot.pricePerGram)
    ensures r.buyingPrice == p.buyingPrice.GetOr(lot.buyingPrice)
    ensures r.soldPrice == p.soldPrice.GetOr(lot.soldPrice)
  {
    Lot(p.id.GetOr(lot.id), p.strainName.GetOr(lot.strainName), p.gramsAvailable.GetOr(lot.gramsAvailable),
        p.pricePerGram.GetOr(lot.pricePerGram), p.buyingPrice.GetOr(lot.buyingPrice), p.soldPrice.GetOr(lot.soldPrice))
  }

  /** `{...p, ...q}` on two patches: a field of `q` wins, else the field of `p`. */
  function Then(p: Patch, q: Patch): Patch
  {
    Patch(Or(q.id, p.id), Or(q.strainName, p.strainName), Or(q.gramsAvailable, p.gramsAvailable),
          Or(q.pricePerGram, p.pricePerGram), Or(q.buyingPrice, p.buyingPrice), Or(q.soldPrice, p.soldPrice))
  }

  function Or<T>(a: Option<T>, b: Option<T>): Option<T>
  {
    if a.Some? then a else b
  }

  /** Spreading nothing leaves the lot as it was. */
  lemma SpreadEmptyKeepsLot(lot: Lot)
    ensures Spread(lot, EmptyPatch) == lot
  {
  }

  /** Spreading the same patch twice is spreading it once. */
  lemma SpreadIdempotent(lot: Lot, p: Patch)
    ensures Spread(Spread(lot, p), p) == Spread(lot, p)
  {
  }

  /** Two spreads in a row are one spread of the combined patch, the later patch winning. */
  lemma SpreadThen(lot: Lot, p: Patch, q: Patch)
    ensures Spread(Spread(lot, p), q) == Spread(lot, Then(p, q))
  {
  }

  /** The patch an offline update echoes back: `{id, ...payload}`. */
  function OfflineEcho(id: int, body: SoldPayload): Patch
  {
    Patch(Some(id), None, Some(body.gramsAvailable), None, None, Some(Some(body.soldPrice)))
  }

  /** Merging the response into the list: only rows with the id change. */
  function Merge(lots: seq<Lot>, id: int, p: Patch): (r: seq<Lot>)
    ensures |r| == |lots|
    ensures forall i :: 0 <= i < |lots| ==> r[i] == (if lots[i].id == id then Spread(lots[i], p) else lots[i])
  {
    if |lots| == 0 then [] else [if lots[0].id == id then Spread(lots[0], p) else lots[0]] + Merge(lots[1..], id, p)
  }

  /** An empty response body leaves the list as it was. */
  lemma MergeEmptyPatchKeepsList(lots: seq<Lot>, id: int)
    ensures Merge(lots, id, EmptyPatch) == lots
  {
  }

  /** Offline, the sold row shows the new stock and price and keeps its id. */
  lemma OfflineSaleShowsNewStock(lots: seq<Lot>, id: int, soldAmount: real, soldPrice: real, i: int)
    requires SoldUpdate(lots, id, soldAmount, soldPrice).Some?
    requires 0 <= i < |lots| && lots[i].id == id
    ensures var body := SoldUpdate(lots, id, soldAmount, soldPrice).value;
      var after := Merge(lots, id, OfflineEcho(id, body))[i];
      after.id == id && after.gramsAvailable == body.gramsAvailable
      && after.soldPrice == Some(body.soldPrice) && after.strainName == lots[i].strainName
  {
  }

  // -------------------------------------------------------------- create

  /** The create form; an empty field is `None`. */
  datatype Form = Form(strainName: string, gramsAvailable: Option<real>, pricePerGram: Option<real>, buyingPrice: Option<real>)

  datatype CreatePayload = CreatePayload(strainName: string, gramsAvailable: real, pricePerGram: real, buyingPrice: real)

  /** The create action: no request unless every field is filled. */
  function AddInventory(f: Form): (r: Option<CreatePayload>)
    ensures r.Some? <==> f.strainName != "" && f.gramsAvailable.Some? && f.pricePerGram.Some? && f.buyingPrice.Some?
    ensures r.Some? ==>
      && r.value.strainName == f.strainName && r.value.gramsAvailable == f.gramsAvailable.value
      && r.value.pricePerGram == f.pricePerGram.value && r.value.buyingPrice == f.buyingPrice.value
  {
    if f.strainName == "" || f.gramsAvailable.None? || f.pricePerGram.None? || f.buyingPrice.None? then None
    else Some(CreatePayload(f.strainName, f.gramsAvailable.value, f.pricePerGram.value, f.buyingPrice.value))
  }
}

=== FILE: inventory_routes.dfy ===
/**
 * The inventory routes: `POST /api/inventory/` creates a lot, `PUT
 * /api/inventory/<id>` records a sale, force-ends a lot and edits its fields.
 * The clock reading `now` stands for `datetime.utcnow()`.
 */
module InventoryRoutes {

  import opened Wrappers
  import opened Stock

  /** The JSON body of a create; `None` for a key that is absent or `null`. */
  datatype CreateRequest = CreateRequest(
    strainName: Option<string>,
    pricePerGram: Option<real>,
    gramsAvailable: Option<real>,
    buyingPrice: Option<real>,
    soldPrice: Option<real>)

  /** The create's guard: a non-empty strain name, and a price per gram and buying price present. */
  predicate HasRequired(req: CreateRequest)
  {
    req.strainName.Some? && req.strainName.value != "" && req.pricePerGram.Some? && req.buyingPrice.Some?
  }

  /** `InventoryListCreate.post`. */
  function Create(s: Store, req: CreateRequest, now: int): (r: Reply)
    ensures !HasRequired(req) <==> r.status == 400
    ensures r.status == 400 ==>
      r.store == s && r.body == Error("strain_name, price_per_gram, and buying_price are required")
    ensures r.status != 400 ==> r.status == 201 && r.body.InventoryBody?
    ensures r.status == 201 ==>
      var id := r.body.inventoryId;
      var inv := r.body.inventory;
      && id == s.nextInventoryId
      && r.store == s.(inventories := s.inventories[id := inv], nextInventoryId := id + 1)
      && inv.strainName == req.strainName.value
      && inv.pricePerGram == req.pricePerGram.value
      && inv.buyingPrice == req.buyingPrice.value
      && inv.soldPrice == req.soldPrice
      && inv.gramsAvailable == req.gramsAvailable.GetOr(0.0)
      && (inv.endedAt.Some? <==> inv.gramsAvailable == 0.0)
      && (inv.endedAt.Some? ==> inv.endedAt.value == now)
  {
    if !HasRequired(req) then
      Reject(400, "strain_name, price_per_gram, and buying_price are required", s)
    else
      var grams := req.gramsAvailable.GetOr(0.0);
      var inv := Inventory(req.strainName.value, req.pricePerGram.value, grams, req.buyingPrice.value,
                           req.soldPrice, if grams == 0.0 then Some(now) else None);
      var id := s.nextInventoryId;
      Reply(201, InventoryBody(id, inv), s.(inventories := s.inventories[id := inv], nextInventoryId := id + 1))
  }

  /** The JSON body of an update; `forceEnd` is the truthiness of `force_end`. */
  datatype UpdateRequest = UpdateRequest(
    forceEnd: bool,
    quantitySold: Option<real>,
    soldPrice: Option<real>,
    strainName: Option<string>,
    pricePerGram: Option<real>,
    buyingPrice: Option<real>)

  /** The lot an accepted update leaves behind (the handler's body after the 400 check). */
  function Apply(inv: Inventory, req: UpdateRequest, now: int): Inventory
  {
    var ended := if req.forceEnd && inv.endedAt.None? then Some(now) else inv.endedAt;
    var sold := TruthyReal(req.quantitySold);
    var grams := if sold then inv.gramsAvailable - req.quantitySold.value else inv.gramsAvailable;
    var price :=
      if sold && TruthyReal(req.soldPrice) then Some(inv.soldPrice.GetOr(0.0) + req.soldPrice.value)
      else inv.soldPrice;
    var ended' := if sold && grams <= 0.0 && ended.None? then Some(now) else ended;
    Inventory(req.strainName.GetOr(inv.strainName), req.pricePerGram.GetOr(inv.pricePerGram), grams,
              req.buyingPrice.GetOr(inv.buyingPrice), price, ended')
  }

  /** `InventoryDetail.put`. */
  function Update(s: Store, id: int, req: UpdateRequest, now: int): (r: Reply)
    ensures r.status == 404 <==> id !in s.inventories
    ensures r.status == 400 <==>
      id in s.inventories && TruthyReal(req.quantitySold) && s.inventories[id].gramsAvailable < req.quantitySold.value
    ensures r.status != 200 ==> r.store == s && r.body.Error?
    ensures r.status == 404 ==> r.body == Error("Inventory not found")
    ensures r.status == 400 ==> r.body == Error("Not enough stock")
    ensures r.status in {200, 400, 404}
    ensures r.status == 200 ==> id in s.inventories && r.body.InventoryBody? && r.body.inventoryId == id
    ensures r.status == 200 ==>
      var before := s.inventories[id];
      var after := r.body.inventory;
      && r.store == s.(inventories := s.inventories[id := after])
      && (TruthyReal(req.quantitySold) ==>
            after.gramsAvailable == before.gramsAvailable - req.quantitySold.value && after.gramsAvailable >= 0.0)
      && (!TruthyReal(req.quantitySold) ==> after.gramsAvailable == before.gramsAvailable)
      && (TruthyReal(req.quantitySold) && TruthyReal(req.soldPrice) ==>
            after.soldPrice == Some(before.soldPrice.GetOr(0.0) + req.soldPrice.value))
      && (!(TruthyReal(req.quantitySold) && TruthyReal(req.soldPrice)) ==> after.soldPrice == before.soldPrice)
      && (before.endedAt.Some? ==> after.endedAt == before.endedAt)
      && (before.endedAt.None? ==>
            (after.endedAt.Some? <==> req.forceEnd || (TruthyReal(req.quantitySold) && after.gramsAvailable <= 0.0)))
      && (after.endedAt.Some? && before.endedAt.None? ==> after.endedAt.value == now)
      && after.strainName == req.strainName.GetOr(before.strainName)
      && after.pricePerGram == req.pricePerGram.GetOr(before.pricePerGram)
      && after.buyingPrice == req.buyingPrice.GetOr(before.buyingPrice)
  {
    if id !in s.inventories then Reject(404, "Inventory not found", s)
    else
      var inv := s.inventories[id];
      if TruthyReal(req.quantitySold) && inv.gramsAvailable < req.quantitySold.value then
        Reject(400, "Not enough stock", s)
      else
        var after := Apply(inv, req, now);
        Reply(200, InventoryBody(id, after), s.(inventories := s.inventories[id := after]))
  }
}

=== FILE: inventory_service.dfy ===
/**
 * The browser's inventory service: an offline write log kept in local
 * storage, the drain that replays it against the inventory endpoint, and the
 * create/update/delete/list calls with their offline branches.
 *
 * Storage is an in-memory value (`None` when the key was never written); the
 * backend is a script of request outcomes; `navigator.onLine` is a parameter.
 */
module InventoryService {

  import opened Wrappers
  import opened JsValues

  /** One logged offline mutation, discriminated by its `type` string. */
  datatype Entry =
    | UpdateEntry(id: JVal, payload: Obj)  // { type: "update", id, payload }
    | CreateEntry(payload: Obj)            // { type: "create", payload }
    | DeleteEntry(id: JVal)                // { type: "delete", id }
    | OtherEntry(kind: string)             // a `type` matching no branch of the drain

  /** The log as `(await offlineQueue.getItem("updates")) || []` reads it. */
  function Log(stored: Option<seq<Entry>>): seq<Entry>
  {
    stored.GetOr([])
  }

  /** `queueUpdate`: read the log, push one entry, write it back. */
  function QueueUpdate(stored: Option<seq<Entry>>, e: Entry): (r: Option<seq<Entry>>)
    ensures r.Some?
    ensures |r.value| == |Log(stored)| + 1
    ensures r.value[..|Log(stored)|] == Log(stored)
    ensures r.value[|Log(stored)|] == e
  {
    Some(Log(stored) + [e])
  }

  /** An axios request to the inventory endpoint. */
  datatype Request = Put(id: JVal, body: JVal) | Post(body: JVal) | Delete(id: JVal)

  /** The request one log entry is replayed as; an unknown `type` sends nothing. */
  function Dispatch(e: Entry): Option<Request>
  {
    match e
    case UpdateEntry(id, payload) => Some(Put(id, JObj(payload)))
    case CreateEntry(payload) => Some(Post(JObj(payload)))
    case DeleteEntry(id) => Some(Delete(id))
    case OtherEntry(_) => None
  }

  /** Reference definition: the requests a complete pass over `q` sends, in log order. */
  function Requests(q: seq<Entry>): seq<Request>
  {
    if |q| == 0 then []
    else (match Dispatch(q[0]) case Some(r) => [r] case None => []) + Requests(q[1..])
  }

  lemma {:induction false} RequestsConcat(a: seq<Entry>, b: seq<Entry>)
    ensures Requests(a + b) == Requests(a) + Requests(b)
  {
    if |a| == 0 {
      assert a + b == b;
    } else {
      assert (a + b)[0] == a[0];
      assert (a + b)[1..] == a[1..] + b;
      RequestsConcat(a[1..], b);
    }
  }

  /** The first `n` scripted outcomes exist and are all successes. */
  predicate AllSucceed(outcomes: seq<bool>, n: nat)
  {
    n <= |outcomes| && forall i :: 0 <= i < n ==> outcomes[i]
  }

  /** One pass of the replay loop: what it sent, and the index of the entry it stopped at. */
  datatype Pass = Pass(sent: seq<Request>, failedAt: Option<nat>)

  function Shift(k: Option<nat>): Option<nat>
  {
    match k case Some(i) => Some(i + 1) case None => None
  }

  /**
   * The `for ... of` loop of `syncOfflineChanges`: entries are dispatched in
   * log order, the i-th request sent gets `outcomes[i]` (a missing outcome is
   * a failure), and the loop returns at the first failing request.
   */
  function Replay(q: seq<Entry>, outcomes: seq<bool>): (p: Pass)
    ensures p.failedAt.None? <==> AllSucceed(outcomes, |Requests(q)|)
    ensures p.failedAt.None? ==> p.sent == Requests(q)
    ensures p.failedAt.Some? ==>
      && p.failedAt.value < |q|
      && Dispatch(q[p.failedAt.value]).Some?
      && p.sent == Requests(q[..p.failedAt.value]) + [Dispatch(q[p.failedAt.value]).value]
      && AllSucceed(outcomes, |p.sent| - 1)
      && !AllSucceed(outcomes, |p.sent|)
    decreases |q|
  {
    if |q| == 0 then Pass([], None)
    else
      match Dispatch(q[0])
      case None =>
        var rest := Replay(q[1..], outcomes);
        assert rest.failedAt.Some? ==> q[1..][..rest.failedAt.value] == q[..rest.failedAt.value + 1][1..];
        Pass(rest.sent, Shift(rest.failedAt))
      case Some(r) =>
        if |outcomes| > 0 && outcomes[0] then
          var rest := Replay(q[1..], outcomes[1..]);
          assert rest.failedAt.Some? ==> q[1..][..rest.failedAt.value] == q[..rest.failedAt.value + 1][1..];
          Pass([r] + rest.sent, Shift(rest.failedAt))
        else
          assert q[..0] == [];
          Pass([r], Some(0))
  }

  /** The outcome of one `syncOfflineChanges` call. */
  datatype Drain = Drain(sent: seq<Request>, failedAt: Option<nat>, stored: Option<seq<Entry>>)

  /**
   * `syncOfflineChanges` as written: an empty log returns at once; a full
   * pass writes `[]`; a failing request returns before the clear, so the
   * stored log is left exactly as it was, already-sent entries included.
   */
  function SyncOfflineChanges(stored: Option<seq<Entry>>, outcomes: seq<bool>): (d: Drain)
    ensures |Log(stored)| == 0 ==> d.sent == [] && d.stored == stored && d.failedAt.None?
    ensures |Log(stored)| > 0 ==> (d.failedAt.None? <==> AllSucceed(outcomes, |Requests(Log(stored))|))
    ensures d.failedAt.None? ==> d.sent == Requests(Log(stored))
    ensures d.failedAt.None? && |Log(stored)| > 0 ==> d.stored == Some([])
    ensures d.failedAt.Some? ==>
      && d.stored == stored
      && d.failedAt.value < |Log(stored)|
      && Dispatch(Log(stored)[d.failedAt.value]).Some?
      && d.sent == Requests(Log(stored)[..d.failedAt.value]) + [Dispatch(Log(stored)[d.failedAt.value]).value]
  {
    var q := Log(stored);
    if |q| == 0 then Drain([], None, stored)
    else
      var p := Replay(q, outcomes);
      if p.failedAt.Some? then Drain(p.sent, p.failedAt, stored)
      else Drain(p.sent, None, Some([]))
  }

  /** Entries of unknown `type` dispatch nothing and count as successes: such a log is simply cleared. */
  lemma {:induction false} UnknownEntriesAreCleared(kinds: seq<string>, outcomes: seq<bool>)
    requires |kinds| > 0
    ensures var q := seq(|kinds|, i requires 0 <= i < |kinds| => OtherEntry(kinds[i]));
      var d := SyncOfflineChanges(Some(q), outcomes);
      d.sent == [] && d.stored == Some([])
  {
    var q := seq(|kinds|, i requires 0 <= i < |kinds| => OtherEntry(kinds[i]));
    NoRequestsFromUnknown(q);
  }

  lemma {:induction false} NoRequestsFromUnknown(q: seq<Entry>)
    requires forall i :: 0 <= i < |q| ==> q[i].OtherEntry?
    ensures Requests(q) == []
  {
    if |q| > 0 {
      NoRequestsFromUnknown(q[1..]);
    }
  }

  /** Append several entries one `queueUpdate` at a time. */
  function EnqueueAll(stored: Option<seq<Entry>>, es: seq<Entry>): Option<seq<Entry>>
    decreases |es|
  {
    if |es| == 0 then stored else EnqueueAll(QueueUpdate(stored, es[0]), es[1..])
  }

  lemma {:induction false} EnqueueAllAppends(stored: Option<seq<Entry>>, es: seq<Entry>)
    ensures Log(EnqueueAll(stored, es)) == Log(stored) + es
    decreases |es|
  {
    if |es| > 0 {
      EnqueueAllAppends(QueueUpdate(stored, es[0]), es[1..]);
      assert Log(stored) + [es[0]] + es[1..] == Log(stored) + es;
    }
  }

  /**
   * FIFO preservation: entries logged one after another onto an empty log are
   * replayed, when every request succeeds, in exactly their logging order,
   * and the log ends empty.
   */
  lemma FifoReplay(es: seq<Entry>, outcomes: seq<bool>)
    requires |es| > 0
    requires AllSucceed(outcomes, |Requests(es)|)
    ensures SyncOfflineChanges(EnqueueAll(None, es), outcomes).sent == Requests(es)
    ensures SyncOfflineChanges(EnqueueAll(None, es), outcomes).stored == Some([])
  {
    EnqueueAllAppends(None, es);
    assert Log(None) + es == es;
  }

  // ---------------------------------------------------------------------
  // Finding: a failed drain keeps the already-sent prefix, so it is sent again.
  // ---------------------------------------------------------------------

  /** Whatever a drain sends is a prefix of what a complete pass over the log would send. */
  lemma SentIsPrefix(stored: Option<seq<Entry>>, outcomes: seq<bool>)
    ensures SyncOfflineChanges(stored, outcomes).sent <= Requests(Log(stored))
  {
    var d := SyncOfflineChanges(stored, outcomes);
    if d.failedAt.Some? {
      StopIsPrefix(Log(stored), d.failedAt.value);
    }
  }

  /** The requests up to and including the one for entry `k` start the full pass. */
  lemma {:induction false} StopIsPrefix(q: seq<Entry>, k: nat)
    requires k < |q| && Dispatch(q[k]).Some?
    ensures Requests(q[..k]) + [Dispatch(q[k]).value] <= Requests(q)
  {
    if k > 0 {
      assert q[..k][1..] == q[1..][..k - 1];
      StopIsPrefix(q[1..], k - 1);
    }
  }

  /**
   * As written, a drain that fails after at least one confirmed request
   * leaves the log untouched, so the next drain replays the same requests
   * from the start: the two drains agree on every request both sent, the
   * first request of the second drain is the already-confirmed first one,
   * and a second drain whose first |d1.sent| - 1 requests succeed sends
   * every request of the first drain again, confirmed ones included.
   */
  lemma FailedDrainResendsConfirmed(stored: Option<seq<Entry>>, first: seq<bool>, second: seq<bool>)
    requires SyncOfflineChanges(stored, first).failedAt.Some?
    requires |SyncOfflineChanges(stored, first).sent| >= 2
    requires |second| > 0
    ensures var d1 := SyncOfflineChanges(stored, first);
      var d2 := SyncOfflineChanges(d1.stored, second);
      && |d2.sent| > 0 && d2.sent[0] == d1.sent[0] && first[0]
      && (forall i :: 0 <= i < |d1.sent| && i < |d2.sent| ==> d2.sent[i] == d1.sent[i])
      && (AllSucceed(second, |d1.sent| - 1) ==> d1.sent <= d2.sent)
  {
    var q := Log(stored);
    var d1 := SyncOfflineChanges(stored, first);
    var d2 := SyncOfflineChanges(d1.stored, second);
    SentIsPrefix(stored, first);
    SentIsPrefix(d1.stored, second);
    assert d1.sent <= Requests(q) && d2.sent <= Requests(q);
  }

  /** The concrete case: a logged create, then a delete whose request fails. */
  lemma CreateIsPostedTwice(payload: Obj)
    ensures var stored := Some([CreateEntry(payload), DeleteEntry(JNum(9.0))]);
      var d1 := SyncOfflineChanges(stored, [true, false]);
      var d2 := SyncOfflineChanges(d1.stored, [true, true]);
      d1.sent + d2.sent == [Post(JObj(payload)), Delete(JNum(9.0)), Post(JObj(payload)), Delete(JNum(9.0))]
      && d2.stored == Some([])
  {
    var q := [CreateEntry(payload), DeleteEntry(JNum(9.0))];
    assert q[1..] == [DeleteEntry(JNum(9.0))];
    assert q[1..][1..] == [];
    assert Requests(q[1..]) == [Delete(JNum(9.0))];
    assert Requests(q) == [Post(JObj(payload)), Delete(JNum(9.0))];
    assert [true, false][1..] == [false];
    assert Replay(q[1..], [false]) == Pass([Delete(JNum(9.0))], Some(0));
    assert Replay(q, [true, false]) == Pass([Post(JObj(payload)), Delete(JNum(9.0))], Some(1));
    assert AllSucceed([true, true], 2);
  }

  /**
   * Corrected drain: on the first failure, keep the failing entry and
   * everything after it, dropping only the confirmed prefix.
   */
  function SyncKeepingRest(stored: Option<seq<Entry>>, outcomes: seq<bool>): (d: Drain)
    ensures d.sent == SyncOfflineChanges(stored, outcomes).sent
    ensures d.failedAt == SyncOfflineChanges(stored, outcomes).failedAt
    ensures d.failedAt.Some? ==> d.stored == Some(Log(stored)[d.failedAt.value..])
    ensures d.failedAt.None? && |Log(stored)| > 0 ==> d.stored == Some([])
    ensures |Log(stored)| == 0 ==> d.stored == stored
  {
    var d := SyncOfflineChanges(stored, outcomes);
    if d.failedAt.Some? then Drain(d.sent, d.failedAt, Some(Log(stored)[d.failedAt.value..])) else d
  }

  /** Requests a drain saw confirmed: all it sent, minus the failing one. */
  function Confirmed(d: Drain): seq<Request>
  {
    if d.failedAt.Some? && |d.sent| > 0 then d.sent[..|d.sent| - 1] else d.sent
  }

  /** Several corrected drains in a row, one outcome script each. */
  function DrainMany(stored: Option<seq<Entry>>, scripts: seq<seq<bool>>): (r: (seq<Request>, Option<seq<Entry>>))
    decreases |scripts|
  {
    if |scripts| == 0 then ([], stored)
    else
      var d := SyncKeepingRest(stored, scripts[0]);
      var rest := DrainMany(d.stored, scripts[1..]);
      (Confirmed(d) + rest.0, rest.1)
  }

  /** One corrected drain neither loses nor repeats a logged request. */
  lemma KeepingRestConserves(stored: Option<seq<Entry>>, outcomes: seq<bool>)
    ensures var d := SyncKeepingRest(stored, outcomes);
      Confirmed(d) + Requests(Log(d.stored)) == Requests(Log(stored))
  {
    var q := Log(stored);
    var d := SyncKeepingRest(stored, outcomes);
    if d.failedAt.Some? {
      var k := d.failedAt.value;
      RequestsConcat(q[..k], q[k..]);
      assert q[..k] + q[k..] == q;
      assert Confirmed(d) == Requests(q[..k]);
    } else if |q| > 0 {
      assert Requests(Log(d.stored)) == [];
    }
  }

  /**
   * At-most-once delivery of the corrected drain: across any number of
   * drains, the confirmed requests followed by what is still logged are
   * exactly the requests originally logged, in order.
   */
  lemma {:induction false} DrainManyConserves(stored: Option<seq<Entry>>, scripts: seq<seq<bool>>)
    ensures var r := DrainMany(stored, scripts);
      r.0 + Requests(Log(r.1)) == Requests(Log(stored))
    decreases |scripts|
  {
    if |scripts| > 0 {
      var d := SyncKeepingRest(stored, scripts[0]);
      KeepingRestConserves(stored, scripts[0]);
      DrainManyConserves(d.stored, scripts[1..]);
      var rest := DrainMany(d.stored, scripts[1..]);
      assert Confirmed(d) + rest.0 + Requests(Log(rest.1)) == Confirmed(d) + (rest.0 + Requests(Log(rest.1)));
    }
  }

  // ---------------------------------------------------------------------
  // The service calls.
  // ---------------------------------------------------------------------

  /** What a service call hands back to the page: a value, or a re-thrown error. */
  datatype Reply = Returned(v: JVal) | Thrown

  /** The backend's answer to one axios request: the response data, or a rejection. */
  datatype Answer = Data(data: JVal) | Rejected

  /** A service call's reply, the requests it sent, and the log it leaves. */
  datatype Call = Call(reply: Reply, sent: seq<Request>, stored: Option<seq<Entry>>)

  /** The "queued (offline)" result an offline mutation returns, distinct from backend data. */
  predicate IsQueuedReply(r: Reply)
  {
    && r.Returned? && r.v.JObj? && "message" in r.v.props
    && r.v.props["message"] in {JStr("Create queued (offline)"), JStr("Update queued (offline)"), JStr("Delete queued (offline)")}
  }

  /** The online branch shared by the three mutations: one request, its data or a re-throw. */
  function Online(req: Request, stored: Option<seq<Entry>>, answer: Answer): Call
  {
    Call(if answer.Data? then Returned(answer.data) else Thrown, [req], stored)
  }

  /** `createInventory`. */
  function CreateInventory(online: bool, payload: Obj, stored: Option<seq<Entry>>, answer: Answer): (c: Call)
    ensures !online ==> c.sent == [] && c.stored == QueueUpdate(stored, CreateEntry(payload))
    ensures !online ==> IsQueuedReply(c.reply) && "inventory" in c.reply.v.props && c.reply.v.props["inventory"] == JObj(payload)
    ensures online ==> c.sent == [Post(JObj(payload))] && c.stored == stored
    ensures online ==> (c.reply.Thrown? <==> answer.Rejected?)
    ensures online && answer.Data? ==> c.reply == Returned(answer.data)
  {
    if !online then
      Call(Returned(JObj(map["message" := JStr("Create queued (offline)"), "inventory" := JObj(payload)])),
           [], QueueUpdate(stored, CreateEntry(payload)))
    else Online(Post(JObj(payload)), stored, answer)
  }

  /** `{ id, ...payload }`: the payload's own properties win over the leading `id`. */
  function WithId(id: JVal, payload: Obj): (r: Obj)
    ensures r.Keys == payload.Keys + {"id"}
    ensures forall k :: k in payload ==> r[k] == payload[k]
    ensures "id" !in payload ==> r["id"] == id
  {
    map["id" := id] + payload
  }

  /** `updateInventory`. */
  function UpdateInventory(online: bool, id: JVal, payload: Obj, stored: Option<seq<Entry>>, answer: Answer): (c: Call)
    ensures !online ==> c.sent == [] && c.stored == QueueUpdate(stored, UpdateEntry(id, payload))
    ensures !online ==> IsQueuedReply(c.reply) && "inventory" in c.reply.v.props && c.reply.v.props["inventory"] == JObj(WithId(id, payload))
    ensures online ==> c.sent == [Put(id, JObj(payload))] && c.stored == stored
    ensures online ==> (c.reply.Thrown? <==> answer.Rejected?)
    ensures online && answer.Data? ==> c.reply == Returned(answer.data)
  {
    if !online then
      Call(Returned(JObj(map["message" := JStr("Update queued (offline)"), "inventory" := JObj(WithId(id, payload))])),
           [], QueueUpdate(stored, UpdateEntry(id, payload)))
    else Online(Put(id, JObj(payload)), stored, answer)
  }

  /** `deleteInventory`. */
  function DeleteInventory(online: bool, id: JVal, stored: Option<seq<Entry>>, answer: Answer): (c: Call)
    ensures !online ==> c.sent == [] && c.stored == QueueUpdate(stored, DeleteEntry(id))
    ensures !online ==> IsQueuedReply(c.reply) && "id" in c.reply.v.props && c.reply.v.props["id"] == id
    ensures online ==> c.sent == [Delete(id)] && c.stored == stored
    ensures online ==> (c.reply.Thrown? <==> answer.Rejected?)
    ensures online && answer.Data? ==> c.reply == Returned(answer.data)
  {
    if !online then
      Call(Returned(JObj(map["message" := JStr("Delete queued (offline)"), "id" := id])),
           [], QueueUpdate(stored, DeleteEntry(id)))
    else Online(Delete(id), stored, answer)
  }

  /** An offline mutation, once drained successfully, sends the request the online path would have sent. */
  lemma OfflineUpdateReplaysAsOnline(id: JVal, payload: Obj, answer: Answer)
    ensures var c := UpdateInventory(false, id, payload, None, answer);
      var d := SyncOfflineChanges(c.stored, [true]);
      d.sent == UpdateInventory(true, id, payload, None, answer).sent && d.stored == Some([])
  {
    assert Requests([UpdateEntry(id, payload)]) == [Put(id, JObj(payload))];
  }

  /**
   * `getInventories`: the `inventories` property of the response data
   * (`None` for `undefined`); any failure, including reading a property of
   * `null` data, becomes `[]`.
   */
  function GetInventories(answer: Answer): (r: Option<JVal>)
    ensures answer.Rejected? ==> r == Some(JArr([]))
    ensures answer.Data? && answer.data.JNull? ==> r == Some(JArr([]))
    ensures answer.Data? && answer.data.JObj? && "inventories" in answer.data.props ==>
      r == Some(answer.data.props["inventories"])
    ensures r.None? <==> answer.Data? && !answer.data.JNull? && !(answer.data.JObj? && "inventories" in answer.data.props)
  {
    match answer
    case Rejected => Some(JArr([]))
    case Data(d) =>
      match Prop(d, "inventories")
      case Value(v) => Some(v)
      case Undefined => None
      case TypeError => Some(JArr([]))
  }

  /** The list endpoint's own body, `{"inventories": [...]}`, is read back as its list. */
  lemma ServerInventoriesAreRead(items: seq<JVal>)
    ensures GetInventories(Data(JObj(map["inventories" := JArr(items)]))) == Some(JArr(items))
  {
  }
}

=== FILE: joint_routes.dfy ===
/**
 * The joint routes: `POST /api/joints/` rolls joints from a lot, deducting
 * the grams used; `PUT /api/joints/<id>` resizes a batch, returning its old
 * grams to the lot before deducting the new amount, and edits its fields.
 * The clock reading `now` stands for `datetime.utcnow()`.
 */
module JointRoutes {

  import opened Wrappers
  import opened Stock

  /** The JSON body of a create; `None` for a key that is absent or `null`. */
  datatype CreateRequest = CreateRequest(
    inventoryId: Option<int>,
    gramsUsed: Option<real>,
    jointsCount: Option<int>,
    pricePerJoint: Option<real>,
    assignedTo: Option<int>,
    soldPrice: Option<real>)

  /** The required fields whose value is missing or falsy, in the order the handler lists them. */
  function Missing(req: CreateRequest): (m: seq<string>)
    ensures "inventory_id" in m <==> !TruthyInt(req.inventoryId)
    ensures "grams_used" in m <==> !TruthyReal(req.gramsUsed)
    ensures "joints_count" in m <==> !TruthyInt(req.jointsCount)
    ensures "price_per_joint" in m <==> !TruthyReal(req.pricePerJoint)
    ensures |m| == 0 <==>
      TruthyInt(req.inventoryId) && TruthyReal(req.gramsUsed) && TruthyInt(req.jointsCount) && TruthyReal(req.pricePerJoint)
  {
    (if TruthyInt(req.inventoryId) then [] else ["inventory_id"])
    + (if TruthyReal(req.gramsUsed) then [] else ["grams_used"])
    + (if TruthyInt(req.jointsCount) then [] else ["joints_count"])
    + (if TruthyReal(req.pricePerJoint) then [] else ["price_per_joint"])
  }

  /** `sep.join(parts)`. */
  function Join(parts: seq<string>, sep: string): string
  {
    if |parts| == 0 then ""
    else if |parts| == 1 then parts[0]
    else parts[0] + sep + Join(parts[1..], sep)
  }

  /**
   * The lot after its stock is set to `grams`: when stock reaches zero or
   * below and the lot is still open, it is clamped to 0 and closed at `now`.
   */
  function Settle(inv: Inventory, grams: real, now: int): Inventory
  {
    if grams <= 0.0 && inv.endedAt.None? then inv.(gramsAvailable := 0.0, endedAt := Some(now))
    else inv.(gramsAvailable := grams)
  }

  /** `JointListCreate.post`. */
  function Create(s: Store, req: CreateRequest, now: int): (r: Reply)
    ensures |Missing(req)| > 0 ==>
      r == Reject(400, "Missing required fields: " + Join(Missing(req), ", "), s)
    ensures |Missing(req)| == 0 && req.inventoryId.value !in s.inventories ==>
      r == Reject(404, "Inventory not found", s)
    ensures |Missing(req)| == 0 && req.inventoryId.value in s.inventories
            && s.inventories[req.inventoryId.value].gramsAvailable < req.gramsUsed.value ==>
      r == Reject(400, "Not enough grams in inventory", s)
    ensures r.status == 201 <==>
      && |Missing(req)| == 0 && req.inventoryId.value in s.inventories
      && s.inventories[req.inventoryId.value].gramsAvailable >= req.gramsUsed.value
    ensures r.status != 201 ==> r.store == s
    ensures r.status == 201 ==>
      var invId := req.inventoryId.value;
      var before := s.inventories[invId];
      var joint := Joint(invId, req.gramsUsed.value, req.jointsCount.value, req.pricePerJoint.value,
                         req.assignedTo, req.soldPrice.GetOr(0.0));
      && r.body == JointBody(s.nextJointId, joint)
      && invId in r.store.inventories
      && var after := r.store.inventories[invId];
      && r.store == s.(inventories := s.inventories[invId := after],
                       joints := s.joints[s.nextJointId := joint],
                       nextJointId := s.nextJointId + 1)
      && after.gramsAvailable == before.gramsAvailable - req.gramsUsed.value
      && after.gramsAvailable >= 0.0
      && after.(gramsAvailable := before.gramsAvailable, endedAt := before.endedAt) == before
      && (before.endedAt.Some? ==> after.endedAt == before.endedAt)
      && (before.endedAt.None? ==> (after.endedAt.Some? <==> after.gramsAvailable == 0.0))
      && (before.endedAt.None? && after.endedAt.Some? ==> after.endedAt.value == now)
  {
    var missing := Missing(req);
    if |missing| > 0 then Reject(400, "Missing required fields: " + Join(missing, ", "), s)
    else if req.inventoryId.value !in s.inventories then Reject(404, "Inventory not found", s)
    else
      var invId := req.inventoryId.value;
      var inv := s.inventories[invId];
      var used := req.gramsUsed.value;
      if inv.gramsAvailable < used then Reject(400, "Not enough grams in inventory", s)
      else
        var after := Settle(inv, inv.gramsAvailable - used, now);
        var joint := Joint(invId, used, req.jointsCount.value, req.pricePerJoint.value,
                           req.assignedTo, req.soldPrice.GetOr(0.0));
        var id := s.nextJointId;
        Reply(201, JointBody(id, joint),
              s.(inventories := s.inventories[invId := after], joints := s.joints[id := joint], nextJointId := id + 1))
  }

  /**
   * The JSON body of an update; `None` for an absent key. `assignedTo` also
   * tells an explicit `null` (`Some(None)`) from an absent key (`None`).
   */
  datatype UpdateRequest = UpdateRequest(
    gramsUsed: Option<real>,
    jointsCount: Option<int>,
    pricePerJoint: Option<real>,
    assignedTo: Option<Option<int>>,
    soldPrice: Option<real>)

  /** The batch's own lot exists. */
  predicate Found(s: Store, jointId: int)
  {
    jointId in s.joints && s.joints[jointId].inventoryId in s.inventories
  }

  /** `JointDetail.put`. */
  function Update(s: Store, jointId: int, req: UpdateRequest, now: int): (r: Reply)
    ensures jointId !in s.joints ==> r == Reject(404, "Joint not found", s)
    ensures jointId in s.joints && !Found(s, jointId) ==> r == Reject(404, "Inventory not found", s)
    ensures r.status == 400 <==>
      && Found(s, jointId) && req.gramsUsed.Some?
      && s.inventories[s.joints[jointId].inventoryId].gramsAvailable + s.joints[jointId].gramsUsed < req.gramsUsed.value
    ensures r.status == 400 ==> r == Reject(400, "Not enough grams in inventory", s)
    ensures r.status in {200, 400, 404}
    ensures r.status == 200 ==> Found(s, jointId) && r.body.JointBody? && r.body.jointId == jointId
    ensures r.status == 200 ==>
      var before := s.joints[jointId];
      var invId := before.inventoryId;
      var lot := s.inventories[invId];
      var after := r.body.joint;
      && invId in r.store.inventories
      && var lot' := r.store.inventories[invId];
      && r.store == s.(inventories := s.inventories[invId := lot'], joints := s.joints[jointId := after])
      && lot'.gramsAvailable + after.gramsUsed == lot.gramsAvailable + before.gramsUsed
      && (req.gramsUsed.Some? ==> lot'.gramsAvailable >= 0.0)
      && lot'.(gramsAvailable := lot.gramsAvailable, endedAt := lot.endedAt) == lot
      && (lot.endedAt.Some? ==> lot'.endedAt == lot.endedAt)
      && (lot.endedAt.None? ==> (lot'.endedAt.Some? <==> req.gramsUsed.Some? && lot'.gramsAvailable == 0.0))
      && (lot.endedAt.None? && lot'.endedAt.Some? ==> lot'.endedAt.value == now)
      && after.inventoryId == invId
      && after.gramsUsed == req.gramsUsed.GetOr(before.gramsUsed)
      && after.jointsCount == req.jointsCount.GetOr(before.jointsCount)
      && after.pricePerJoint == req.pricePerJoint.GetOr(before.pricePerJoint)
      && after.assignedTo == req.assignedTo.GetOr(before.assignedTo)
      && after.soldPrice == req.soldPrice.GetOr(before.soldPrice)
  {
    if jointId !in s.joints then Reject(404, "Joint not found", s)
    else
      var joint := s.joints[jointId];
      if joint.inventoryId !in s.inventories then Reject(404, "Inventory not found", s)
      else
        var inv := s.inventories[joint.inventoryId];
        var returned := inv.gramsAvailable + joint.gramsUsed;
        if req.gramsUsed.Some? && returned < req.gramsUsed.value then
          Reject(400, "Not enough grams in inventory", s)
        else
          var lot' := if req.gramsUsed.Some? then Settle(inv, returned - req.gramsUsed.value, now) else inv;
          var after := Joint(joint.inventoryId, req.gramsUsed.GetOr(joint.gramsUsed),
                             req.jointsCount.GetOr(joint.jointsCount),
                             req.pricePerJoint.GetOr(joint.pricePerJoint),
                             req.assignedTo.GetOr(joint.assignedTo),
                             req.soldPrice.GetOr(joint.soldPrice));
          Reply(200, JointBody(jointId, after),
                s.(inventories := s.inventories[joint.inventoryId := lot'], joints := s.joints[jointId := after]))
  }
}

=== FILE: joint_service.dfy ===
/**
 * The browser's joint service: a read-through cache of the joint list kept
 * under the key "allJoints", patched after each successful mutation, with an
 * optimistic record appended when a create fails.
 *
 * The stored value is `None` when the key was never written. Each call gets
 * the one `fetch` answer it awaits; `Date.now()` is the parameter `now`.
 */
module JointService {

  import opened Wrappers
  import opened JsValues
  import Seqs

  /**
   * The answer to one `fetch`: a rejected promise, or a response with its
   * `ok` flag and its JSON body (`None` when `res.json()` rejects).
   */
  datatype Fetch = NetworkError | Http(ok: bool, body: Option<JVal>)

  /** The call got past `res.ok` and `await res.json()`. */
  predicate Usable(f: Fetch)
  {
    f.Http? && f.ok && f.body.Some?
  }

  /** What a service call hands back: a value, or an error thrown to the page. */
  datatype Reply = Returned(v: JVal) | Thrown

  /** A call's reply, the cache it leaves, and whether it waited on the network. */
  datatype Call = Call(reply: Reply, cache: Option<JVal>, awaited: bool)

  /** `if (cached)`: the stored value short-circuits the fetch exactly when it is truthy. */
  predicate Hit(cache: Option<JVal>)
  {
    cache.Some? && Truthy(cache.value)
  }

  /** `Array.isArray(data) ? data : []`. */
  function ArrayOrNothing(data: JVal): JVal
  {
    if data.JArr? then data else JArr([])
  }

  /**
   * `getJoints`: a truthy stored value (an empty array included) is returned
   * without waiting on the network; otherwise the list is fetched, a
   * non-array body becomes `[]`, and what is stored is what is returned.
   */
  function GetJoints(cache: Option<JVal>, fetch: Fetch): (c: Call)
    ensures Hit(cache) ==> c.reply == Returned(cache.value) && c.cache == cache && !c.awaited
    ensures !Hit(cache) ==> c.awaited
    ensures !Hit(cache) && !Usable(fetch) ==> c.reply.Thrown? && c.cache == cache
    ensures !Hit(cache) && Usable(fetch) ==>
      && c.reply.Returned? && c.reply.v.JArr? && c.cache == Some(c.reply.v)
      && (fetch.body.value.JArr? ==> c.reply.v == fetch.body.value)
      && (!fetch.body.value.JArr? ==> c.reply.v == JArr([]))
  {
    if Hit(cache) then Call(Returned(cache.value), cache, false)
    else if !Usable(fetch) then Call(Thrown, cache, true)
    else
      var joints := ArrayOrNothing(fetch.body.value);
      Call(Returned(joints), Some(joints), true)
  }

  /** An array holding an empty list is still a hit: later reads never reach the network. */
  lemma EmptyListIsSticky(fetch: Fetch, later: Fetch)
    requires Usable(fetch)
    ensures var c1 := GetJoints(None, fetch);
      var c2 := GetJoints(c1.cache, later);
      !c2.awaited && c2.reply == c1.reply && c2.cache == c1.cache
  {
  }

  /** `{ id: Date.now(), ...joint, offline: true }`. */
  function Optimistic(joint: Obj, now: real): (o: Obj)
    ensures o.Keys == joint.Keys + {"id", "offline"}
    ensures o["offline"] == JBool(true)
    ensures forall k :: k in joint && k != "offline" ==> o[k] == joint[k]
    ensures "id" !in joint ==> o["id"] == JNum(now)
  {
    map["id" := JNum(now)] + joint + map["offline" := JBool(true)]
  }

  /**
   * `createJoint`: a usable response's whole body is appended; any failure
   * on the way (rejection, non-OK status, unreadable body) appends and
   * returns the optimistic record instead. A non-array stored value is
   * treated as empty. Optimistic records are not logged for replay.
   */
  function CreateJoint(cache: Option<JVal>, joint: Obj, fetch: Fetch, now: real): (c: Call)
    ensures c.reply.Returned?
    ensures Usable(fetch) ==> c.reply.v == fetch.body.value
    ensures !Usable(fetch) ==> c.reply.v == JObj(Optimistic(joint, now))
    ensures c.cache.Some? && c.cache.value.JArr?
    ensures |c.cache.value.items| == |ArrayOrEmpty(cache)| + 1
    ensures c.cache.value.items[..|ArrayOrEmpty(cache)|] == ArrayOrEmpty(cache)
    ensures c.cache.value.items[|ArrayOrEmpty(cache)|] == c.reply.v
    ensures !(cache.Some? && cache.value.JArr?) ==> c.cache.value.items == [c.reply.v]
  {
    var created := if Usable(fetch) then fetch.body.value else JObj(Optimistic(joint, now));
    Call(Returned(created), Some(JArr(ArrayOrEmpty(cache) + [created])), true)
  }

  /** `all.map(j => j.id === id ? updated : j)` over a list with no `null` element. */
  function ReplaceById(all: seq<JVal>, id: real, updated: JVal): seq<JVal>
  {
    seq(|all|, i requires 0 <= i < |all| => if HasId(all[i], id) then updated else all[i])
  }

  /**
   * The list a patch works on, `(await getItem("allJoints")) || []`, when
   * `.map`/`.filter` can run over it: an array, none of whose elements is
   * `null` (reading `.id` of `null` throws).
   */
  function Patchable(cache: Option<JVal>): Option<seq<JVal>>
  {
    var all := if Hit(cache) then cache.value else JArr([]);
    if all.JArr? && JNull !in all.items then Some(all.items) else None
  }

  /**
   * `updateJoint`: after a usable response, every cached element whose `id`
   * equals `id` is replaced by the response and the rest are kept in place.
   * Any failure re-throws and leaves the cache untouched, including a
   * TypeError raised by a stored value `.map` cannot run over.
   */
  function UpdateJoint(cache: Option<JVal>, id: real, fetch: Fetch): (c: Call)
    ensures c.reply.Thrown? ==> c.cache == cache
    ensures !Usable(fetch) ==> c.reply.Thrown?
    ensures Usable(fetch) && Patchable(cache).None? ==> c.reply.Thrown?
    ensures Usable(fetch) && Patchable(cache).Some? ==>
      var all := Patchable(cache).value;
      && c.reply == Returned(fetch.body.value)
      && c.cache.Some? && c.cache.value.JArr?
      && |c.cache.value.items| == |all|
      && (forall i :: 0 <= i < |all| && HasId(all[i], id) ==> c.cache.value.items[i] == fetch.body.value)
      && (forall i :: 0 <= i < |all| && !HasId(all[i], id) ==> c.cache.value.items[i] == all[i])
  {
    if !Usable(fetch) then Call(Thrown, cache, true)
    else match Patchable(cache)
      case None => Call(Thrown, cache, true)
      case Some(all) =>
        Call(Returned(fetch.body.value), Some(JArr(ReplaceById(all, id, fetch.body.value))), true)
  }

  /** Patching an id no cached element carries changes nothing but the storage form. */
  lemma UpdateOfAbsentIdKeepsList(cache: Option<JVal>, id: real, fetch: Fetch)
    requires Usable(fetch) && Patchable(cache).Some?
    requires forall i :: 0 <= i < |Patchable(cache).value| ==> !HasId(Patchable(cache).value[i], id)
    ensures UpdateJoint(cache, id, fetch).cache == Some(JArr(Patchable(cache).value))
  {
    var all := Patchable(cache).value;
    assert ReplaceById(all, id, fetch.body.value) == all;
  }

  /** The test `deleteJoint` keeps: the element's `id` is not `id`. */
  function Other(id: real): JVal -> bool
  {
    (j: JVal) => !HasId(j, id)
  }

  /**
   * `deleteJoint`: after a usable response, exactly the cached elements whose
   * `id` equals `id` are removed and the rest keep their order. Any failure
   * re-throws and leaves the cache untouched.
   */
  function DeleteJoint(cache: Option<JVal>, id: real, fetch: Fetch): (c: Call)
    ensures c.reply.Thrown? ==> c.cache == cache
    ensures !Usable(fetch) ==> c.reply.Thrown?
    ensures Usable(fetch) && Patchable(cache).None? ==> c.reply.Thrown?
    ensures Usable(fetch) && Patchable(cache).Some? ==>
      var all := Patchable(cache).value;
      && c.reply == Returned(fetch.body.value)
      && c.cache.Some? && c.cache.value.JArr?
      && Seqs.IsSubsequence(c.cache.value.items, all)
      && (forall i :: 0 <= i < |c.cache.value.items| ==> !HasId(c.cache.value.items[i], id))
      && (forall i :: 0 <= i < |all| && !HasId(all[i], id) ==> all[i] in c.cache.value.items)
      && (forall j {:trigger multiset(c.cache.value.items)[j]} :: multiset(c.cache.value.items)[j] == (if HasId(j, id) then 0 else multiset(all)[j]))
  {
    if !Usable(fetch) then Call(Thrown, cache, true)
    else match Patchable(cache)
      case None => Call(Thrown, cache, true)
      case Some(all) =>
        var kept := Seqs.Filter(all, Other(id));
        Seqs.FilterIsSubsequence(all, Other(id));
        Seqs.FilterCounts(all, Other(id));
        Call(Returned(fetch.body.value), Some(JArr(kept)), true)
  }

  /** Deleting the same id twice leaves the cache as one delete did. */
  lemma DeleteIsIdempotent(cache: Option<JVal>, id: real, f1: Fetch, f2: Fetch)
    requires Usable(f1) && Usable(f2) && Patchable(cache).Some?
    ensures var c1 := DeleteJoint(cache, id, f1);
      DeleteJoint(c1.cache, id, f2).cache == c1.cache
  {
    var kept := Seqs.Filter(Patchable(cache).value, Other(id));
    KeptIsPatchable(Patchable(cache).value, id);
    assert DeleteJoint(cache, id, f1).cache == Some(JArr(kept));
    assert DeleteJoint(Some(JArr(kept)), id, f2).cache == Some(JArr(Seqs.Filter(kept, Other(id))));
  }

  /** The rows a delete keeps hold no `null`, and deleting the id from them again keeps them all. */
  lemma KeptIsPatchable(all: seq<JVal>, id: real)
    requires JNull !in all
    ensures Patchable(Some(JArr(Seqs.Filter(all, Other(id))))) == Some(Seqs.Filter(all, Other(id)))
    ensures Seqs.Filter(Seqs.Filter(all, Other(id)), Other(id)) == Seqs.Filter(all, Other(id))
  {
    var kept := Seqs.Filter(all, Other(id));
    forall i | 0 <= i < |kept| ensures kept[i] != JNull && Other(id)(kept[i]) {
      assert kept[i] in all;
    }
    assert JNull !in kept;
    assert Truthy(JArr(kept));
    Seqs.FilterAll(kept, Other(id));
  }

  // ---------------------------------------------------------------------
  // Finding: the list endpoint answers an object, which is cached as [].
  // ---------------------------------------------------------------------

  /** The body the joint list endpoint answers: `{ "joints": [...] }`. */
  function ServerListBody(joints: seq<JVal>): JVal
  {
    JObj(map["joints" := JArr(joints)])
  }

  /**
   * As written, reading the joint list from an empty cache against the real
   * server body yields `[]`, stores it, and every later read returns that
   * `[]` without asking the server again.
   */
  lemma ServerListIsDropped(joints: seq<JVal>, later: Fetch)
    requires |joints| > 0
    ensures var c1 := GetJoints(None, Http(true, Some(ServerListBody(joints))));
      var c2 := GetJoints(c1.cache, later);
      c1.reply == Returned(JArr([])) && c2.reply == Returned(JArr([])) && !c2.awaited
  {
  }

  /** The list inside a list response: the body itself if it is an array, else its `joints` array, else `[]`. */
  function UnwrapList(data: JVal): JVal
  {
    if data.JArr? then data
    else if data.JObj? && "joints" in data.props && data.props["joints"].JArr? then data.props["joints"]
    else JArr([])
  }

  /** Corrected `getJoints`: same read-through policy, reading the `joints` array out of the body. */
  function GetJointsUnwrapped(cache: Option<JVal>, fetch: Fetch): (c: Call)
    ensures Hit(cache) ==> c.reply == Returned(cache.value) && c.cache == cache && !c.awaited
    ensures !Hit(cache) && !Usable(fetch) ==> c.reply.Thrown? && c.cache == cache
    ensures !Hit(cache) && Usable(fetch) ==> c.reply.Returned? && c.cache == Some(c.reply.v) && c.reply.v.JArr?
  {
    if Hit(cache) then Call(Returned(cache.value), cache, false)
    else if !Usable(fetch) then Call(Thrown, cache, true)
    else
      var joints := UnwrapList(fetch.body.value);
      Call(Returned(joints), Some(joints), true)
  }

  /** The corrected read returns and caches exactly the joints the server listed. */
  lemma UnwrappedReadReturnsServerList(joints: seq<JVal>)
    ensures var c := GetJointsUnwrapped(None, Http(true, Some(ServerListBody(joints))));
      c.reply == Returned(JArr(joints)) && c.cache == Some(JArr(joints))
  {
  }
}

=== FILE: joints_page.dfy ===
/**
 * The page that manages the joint batches rolled from one inventory lot:
 * the batch list for the lot, the add form, selling from a row, assigning
 * a batch to an employee, and the totals strip.
 */
module JointsPage {

  import opened Wrappers
  import opened PageRecords
  import Seqs

  /** The test the list applies: `j.inventory_id === Number(inventoryId)`. */
  function OfLot(lotId: int): JointRow -> bool
  {
    (j: JointRow) => j.inventoryId == lotId
  }

  /** The rows the page shows for lot `lotId` (the route parameter as a number). */
  function LotJoints(all: seq<JointRow>, lotId: int): (r: seq<JointRow>)
    ensures Seqs.IsSubsequence(r, all)
    ensures forall i :: 0 <= i < |r| ==> r[i].inventoryId == lotId
    ensures forall i :: 0 <= i < |all| && all[i].inventoryId == lotId ==> all[i] in r
    ensures forall j :: multiset(r)[j] == (if j.inventoryId == lotId then multiset(all)[j] else 0)
  {
    Seqs.FilterIsSubsequence(all, OfLot(lotId));
    Seqs.FilterCounts(all, OfLot(lotId));
    Seqs.Filter(all, OfLot(lotId))
  }

  /** A batch appended to the list shows up last under its own lot and nowhere else. */
  lemma AppendedBatchIsListedLast(all: seq<JointRow>, j: JointRow, lotId: int)
    ensures LotJoints(all + [j], lotId) == LotJoints(all, lotId) + (if j.inventoryId == lotId then [j] else [])
  {
    Seqs.FilterConcat(all, [j], OfLot(lotId));
    assert [j][1..] == [];
  }

  // --------------------------------------------------------------- add

  /** The create-joint body the page sends. */
  datatype AddPayload = AddPayload(
    inventoryId: int,
    jointsCount: int,
    gramsUsed: real,
    pricePerJoint: real,
    assignedTo: Assignee,
    soldPrice: real)

  datatype AddOutcome = InvalidValues | NotEnoughGrams | SendAdd(payload: AddPayload)

  /**
   * The add form after parsing (an unparsable field reads as 0): every value
   * must be positive, and the lot on screen must hold the grams.
   */
  function AddJoint(lotId: int, lot: Option<Lot>, gramsUsed: real, jointsCount: int, pricePerJoint: real): (r: AddOutcome)
    ensures r.InvalidValues? <==> jointsCount <= 0 || gramsUsed <= 0.0 || pricePerJoint <= 0.0
    ensures r.NotEnoughGrams? <==> !r.InvalidValues? && (lot.None? || lot.value.gramsAvailable < gramsUsed)
    ensures r.SendAdd? ==>
      && r.payload.inventoryId == lotId
      && r.payload.jointsCount == jointsCount > 0
      && 0.0 < r.payload.gramsUsed == gramsUsed <= lot.value.gramsAvailable
      && r.payload.pricePerJoint == pricePerJoint > 0.0
      && r.payload.assignedTo == Unassigned
      && r.payload.soldPrice == 0.0
  {
    if jointsCount <= 0 || gramsUsed <= 0.0 || pricePerJoint <= 0.0 then InvalidValues
    else if lot.None? || lot.value.gramsAvailable < gramsUsed then NotEnoughGrams
    else SendAdd(AddPayload(lotId, jointsCount, gramsUsed, pricePerJoint, Unassigned, 0.0))
  }

  // -------------------------------------------------------------- sell

  /** The sale body this page sends. */
  datatype SalePayload = SalePayload(soldQty: int, soldPrice: real, soldBy: Assignee)

  /**
   * Outcome of the Sell button: ignored, refused with an alert, a thrown
   * lookup error (the row is not in the list), or a request.
   */
  datatype SellOutcome = Ignored | TooMany | LookupThrows | SendSale(payload: SalePayload)

  /** The Sell button for batch `jointId`; `toSell` is the already floored quantity. */
  function Sell(rows: seq<JointRow>, jointId: int, toSell: int, soldPrice: real, employee: Assignee): (r: SellOutcome)
    ensures toSell <= 0 ==> r.Ignored?
    ensures toSell > 0 && FindJoint(rows, jointId).None? ==> r.LookupThrows?
    ensures r.TooMany? <==> toSell > 0 && FindJoint(rows, jointId).Some? && toSell > FindJoint(rows, jointId).value.jointsCount.GetOr(0)
    ensures r.SendSale? <==>
      toSell > 0 && FindJoint(rows, jointId).Some? && toSell <= FindJoint(rows, jointId).value.jointsCount.GetOr(0)
    ensures r.SendSale? ==>
      && 0 < r.payload.soldQty == toSell <= FindJoint(rows, jointId).value.jointsCount.GetOr(0)
      && r.payload.soldPrice == soldPrice
      && r.payload.soldBy == employee
  {
    if toSell <= 0 then Ignored
    else match FindJoint(rows, jointId)
      case None => LookupThrows
      case Some(j) =>
        if toSell > j.jointsCount.GetOr(0) then TooMany
        else SendSale(SalePayload(toSell, soldPrice, employee))
  }

  /** A sale body in the keys the joint update route reads. */
  datatype CountedSale = CountedSale(jointsCount: int, soldPrice: real)

  /**
   * The Sell button sending the batch's remaining count and its takings
   * with this sale's amount added, under the same guards as `Sell`.
   */
  function SellCounted(rows: seq<JointRow>, jointId: int, toSell: int, soldPrice: real): (r: Option<CountedSale>)
    ensures r.Some? <==> Sell(rows, jointId, toSell, soldPrice, Unassigned).SendSale?
    ensures r.Some? ==>
      var j := FindJoint(rows, jointId).value;
      && r.value.jointsCount == j.jointsCount.GetOr(0) - toSell
      && 0 <= r.value.jointsCount < j.jointsCount.GetOr(0)
      && r.value.soldPrice == j.soldPrice.GetOr(0.0) + soldPrice
  {
    match Sell(rows, jointId, toSell, soldPrice, Unassigned)
    case SendSale(_) =>
      var j := FindJoint(rows, jointId).value;
      Some(CountedSale(j.jointsCount.GetOr(0) - toSell, j.soldPrice.GetOr(0.0) + soldPrice))
    case _ => None
  }

  /** Selling from a row of the list never hits the lookup error. */
  lemma SellFromListedRow(rows: seq<JointRow>, i: int, toSell: int, soldPrice: real, employee: Assignee)
    requires 0 <= i < |rows|
    ensures !Sell(rows, rows[i].id, toSell, soldPrice, employee).LookupThrows?
  {
  }

  // ------------------------------------------------------------ assign

  /** The value the Assign button passes: the selection, else the current assignee. */
  function AssignTarget(selected: string, current: Assignee): (r: Assignee)
    ensures selected != "" ==> r == ByText(selected)
    ensures selected == "" ==> r == current
  {
    if selected != "" then ByText(selected) else current
  }

  /** The Assign button: no request for a falsy target, else `{assigned_to: target}`. */
  function Assign(target: Assignee): (r: Option<Assignee>)
    ensures r.Some? <==> AssigneeTruthy(target)
    ensures r.Some? ==> r.value == target
  {
    if AssigneeTruthy(target) then Some(target) else None
  }

  /** With nothing selected an unassigned batch sends nothing; any selection is sent. */
  lemma AssignNeedsATarget(selected: string, current: Assignee)
    ensures selected == "" && current == Unassigned ==> Assign(AssignTarget(selected, current)).None?
    ensures selected != "" ==> Assign(AssignTarget(selected, current)) == Some(ByText(selected))
  {
  }

  // ------------------------------------------------------------ totals

  function CountOf(j: JointRow): int { j.jointsCount.GetOr(0) }

  function ValueOf(j: JointRow): real { (j.jointsCount.GetOr(0) as real) * j.pricePerJoint.GetOr(0.0) }

  function CashOf(j: JointRow): real { j.soldPrice.GetOr(0.0) }

  datatype Totals = Totals(joints: int, value: real, cash: real)

  /** The totals strip as a single pass over the rows. */
  method ComputeTotals(rows: seq<JointRow>) returns (t: Totals)
    ensures t.joints == Seqs.SumInt(rows, CountOf)
    ensures t.value == Seqs.SumReal(rows, ValueOf)
    ensures t.cash == Seqs.SumReal(rows, CashOf)
  {
    var joints, value, cash := 0, 0.0, 0.0;
    var i := 0;
    while i < |rows|
      invariant 0 <= i <= |rows|
      invariant joints == Seqs.SumInt(rows[..i], CountOf)
      invariant value == Seqs.SumReal(rows[..i], ValueOf)
      invariant cash == Seqs.SumReal(rows[..i], CashOf)
    {
      assert rows[..i + 1] == rows[..i] + [rows[i]];
      Seqs.SumIntConcat(rows[..i], [rows[i]], CountOf);
      Seqs.SumRealConcat(rows[..i], [rows[i]], ValueOf);
      Seqs.SumRealConcat(rows[..i], [rows[i]], CashOf);
      joints := joints + CountOf(rows[i]);
      value := value + ValueOf(rows[i]);
      cash := cash + CashOf(rows[i]);
      i := i + 1;
    }
    assert rows[..i] == rows;
    t := Totals(joints, value, cash);
  }

  /** When no row has a negative count, the joint total is not negative. */
  lemma {:induction false} TotalJointsNonNegative(rows: seq<JointRow>)
    requires forall i :: 0 <= i < |rows| ==> CountOf(rows[i]) >= 0
    ensures Seqs.SumInt(rows, CountOf) >= 0
  {
    if |rows| > 0 {
      TotalJointsNonNegative(rows[1..]);
    }
  }
}

=== FILE: js_values.dfy ===
/**
 * JSON-shaped JavaScript values, as the browser services keep them in their
 * local stores and receive them from the backend.
 */
module JsValues {

  import opened Wrappers

  /** A JavaScript value that JSON can carry (numbers are never NaN here). */
  datatype JVal =
    | JNull
    | JBool(b: bool)
    | JNum(n: real)
    | JStr(s: string)
    | JArr(items: seq<JVal>)
    | JObj(props: map<string, JVal>)

  /** A plain object's own properties. */
  type Obj = map<string, JVal>

  /** JavaScript truthiness: `null`, `false`, `0` and `""` are falsy; arrays and objects are truthy. */
  predicate Truthy(v: JVal)
  {
    match v
    case JNull => false
    case JBool(b) => b
    case JNum(n) => n != 0.0
    case JStr(s) => s != ""
    case JArr(_) => true
    case JObj(_) => true
  }

  /** What a property read `v.key` yields. */
  datatype Read = Undefined | Value(v: JVal) | TypeError

  /**
   * `v.key` for a key that is not a built-in property: an object's own
   * property or `undefined`; reading from `null` throws a TypeError.
   */
  function Prop(v: JVal, key: string): (r: Read)
    ensures r.TypeError? <==> v.JNull?
    ensures r.Value? <==> v.JObj? && key in v.props
    ensures r.Value? ==> r.v == v.props[key]
  {
    match v
    case JNull => TypeError
    case JObj(m) => if key in m then Value(m[key]) else Undefined
    case _ => Undefined
  }

  /** `v.id === id` for a numeric `id`. */
  predicate HasId(v: JVal, id: real)
  {
    Prop(v, "id") == Value(JNum(id))
  }

  /** `(stored || [])` followed by `if (!Array.isArray(all)) all = []`. */
  function ArrayOrEmpty(stored: Option<JVal>): seq<JVal>
  {
    if stored.Some? && stored.value.JArr? then stored.value.items else []
  }
}

=== FILE: page_records.dfy ===
/** The inventory and joint records as the pages hold them after a fetch. */
module PageRecords {

  import opened Wrappers

  /** An inventory lot row; `soldPrice` is `None` when the field is null or missing. */
  datatype Lot = Lot(
    id: int,
    strainName: string,
    gramsAvailable: real,
    pricePerGram: real,
    buyingPrice: real,
    soldPrice: Option<real>)

  /**
   * Who a batch is assigned to: nobody (`null`), a numeric user id as the
   * server stores it, or the string an employee `<select>` yields.
   */
  datatype Assignee = Unassigned | ById(n: int) | ByText(s: string)

  /** A joint batch row; numeric fields read as `None` when null or missing. */
  datatype JointRow = JointRow(
    id: int,
    inventoryId: int,
    jointsCount: Option<int>,
    pricePerJoint: Option<real>,
    soldPrice: Option<real>,
    assignedTo: Assignee)

  /** The first lot with this id, as `Array.prototype.find` returns it. */
  function FindLot(lots: seq<Lot>, id: int): (r: Option<Lot>)
    ensures r.Some? <==> exists i :: 0 <= i < |lots| && lots[i].id == id
    ensures r.Some? ==> exists i :: 0 <= i < |lots| && lots[i] == r.value && forall j :: 0 <= j < i ==> lots[j].id != id
    ensures r.Some? ==> r.value.id == id
  {
    if |lots| == 0 then None
    else if lots[0].id == id then Some(lots[0])
    else
      var r := FindLot(lots[1..], id);
      assert r.Some? ==> exists i :: 1 <= i < |lots| && lots[i] == r.value && forall j :: 0 <= j < i ==> lots[j].id != id by {
        if r.Some? {
          var i :| 0 <= i < |lots[1..]| && lots[1..][i] == r.value && forall j :: 0 <= j < i ==> lots[1..][j].id != id;
          assert lots[i + 1] == r.value;
          assert forall j :: 0 <= j < i + 1 ==> lots[j].id != id by {
            forall j | 0 <= j < i + 1 ensures lots[j].id != id {
              if j > 0 { assert lots[j] == lots[1..][j - 1]; }
            }
          }
        }
      }
      r
  }

  /** The first joint row with this id. */
  function FindJoint(rows: seq<JointRow>, id: int): (r: Option<JointRow>)
    ensures r.Some? <==> exists i :: 0 <= i < |rows| && rows[i].id == id
    ensures r.Some? ==> r.value in rows && r.value.id == id
  {
    if |rows| == 0 then None
    else if rows[0].id == id then Some(rows[0])
    else FindJoint(rows[1..], id)
  }

  /** JavaScript truthiness of an assignee value. */
  predicate AssigneeTruthy(a: Assignee)
  {
    match a
    case Unassigned => false
    case ById(n) => n != 0
    case ByText(s) => s != ""
  }

  /** Decimal digits of a natural number. */
  function NatText(n: nat): (r: string)
    ensures |r| > 0
    ensures forall i :: 0 <= i < |r| ==> '0' <= r[i] <= '9'
    decreases n
  {
    var d := [(48 + n % 10) as char];
    if n < 10 then d else NatText(n / 10) + d
  }

  /** `String(n)` for an integer. */
  function IntText(n: int): string
  {
    if n < 0 then "-" + NatText(-n) else NatText(n)
  }

  /** `String(v)` of an assignee value. */
  function Text(a: Assignee): string
  {
    match a
    case Unassigned => "null"
    case ById(n) => IntText(n)
    case ByText(s) => s
  }
}

=== FILE: role_route.dfy ===
/** The route guard that gates a page on the signed-in user's role. */
module RoleRoute {

  import opened Wrappers

  /** The signed-in user as the auth context holds it; a missing role is `None`. */
  datatype SessionUser = SessionUser(role: Option<string>)

  datatype Outcome = RedirectToLogin | PermissionDenied | RenderChildren

  /**
   * The guard: no user goes to the login page; a user whose role is not
   * listed sees the permission message. An omitted role list is empty.
   */
  function Guard(user: Option<SessionUser>, allowedRoles: Option<seq<string>>): (r: Outcome)
    ensures user.None? <==> r == RedirectToLogin
    ensures r == RenderChildren <==>
      user.Some? && user.value.role.Some? && user.value.role.value in allowedRoles.GetOr([])
  {
    if user.None? then RedirectToLogin
    else
      var allowed := allowedRoles.GetOr([]);
      if user.value.role.None? || user.value.role.value !in allowed then PermissionDenied
      else RenderChildren
  }

  /** Without a role list the guard admits no one. */
  lemma OmittedRolesAdmitNoOne(user: Option<SessionUser>)
    ensures Guard(user, None) != RenderChildren
  {
  }

  /** The employee pages admit exactly the employees; the superadmin pages exactly the superadmins. */
  lemma SingleRolePages(user: SessionUser)
    ensures Guard(Some(user), Some(["employee"])) == RenderChildren <==> user.role == Some("employee")
    ensures Guard(Some(user), Some(["superadmin"])) == RenderChildren <==> user.role == Some("superadmin")
  {
  }

  /** A user without a role never gets past the guard. */
  lemma RolelessUserIsDenied(allowedRoles: Option<seq<string>>)
    ensures Guard(Some(SessionUser(None)), allowedRoles) == PermissionDenied
  {
  }
}

=== FILE: seqs.dfy ===
/** Order-preserving filters and sums over sequences, shared by the list views. */
module Seqs {

  /** `a` can be obtained from `b` by deleting elements, keeping the order of the rest. */
  predicate IsSubsequence<T(==)>(a: seq<T>, b: seq<T>)
    decreases |b|
  {
    |a| == 0 ||
    (|b| > 0 && ((a[0] == b[0] && IsSubsequence(a[1..], b[1..])) || IsSubsequence(a, b[1..])))
  }

  /** `Array.prototype.filter`: the elements satisfying `p`, in their original order. */
  function Filter<T(==)>(s: seq<T>, p: T -> bool): (r: seq<T>)
    ensures |r| <= |s|
    ensures forall i :: 0 <= i < |r| ==> p(r[i]) && r[i] in s
    ensures forall i :: 0 <= i < |s| && p(s[i]) ==> s[i] in r
  {
    if |s| == 0 then []
    else if p(s[0]) then [s[0]] + Filter(s[1..], p)
    else Filter(s[1..], p)
  }

  /** A filter keeps every copy of a passing element and no copy of a failing one. */
  lemma {:induction false} FilterCounts<T>(s: seq<T>, p: T -> bool)
    ensures forall x :: multiset(Filter(s, p))[x] == (if p(x) then multiset(s)[x] else 0)
  {
    if |s| > 0 {
      FilterCounts(s[1..], p);
      assert s == [s[0]] + s[1..];
    }
  }

  lemma {:induction false} FilterIsSubsequence<T>(s: seq<T>, p: T -> bool)
    ensures IsSubsequence(Filter(s, p), s)
  {
    if |s| > 0 {
      FilterIsSubsequence(s[1..], p);
    }
  }

  /** Filtering distributes over concatenation. */
  lemma {:induction false} FilterConcat<T>(a: seq<T>, b: seq<T>, p: T -> bool)
    ensures Filter(a + b, p) == Filter(a, p) + Filter(b, p)
  {
    if |a| == 0 {
      assert a + b == b;
    } else {
      assert (a + b)[1..] == a[1..] + b;
      FilterConcat(a[1..], b, p);
    }
  }

  /** A filter whose predicate holds everywhere removes nothing. */
  lemma {:induction false} FilterAll<T>(s: seq<T>, p: T -> bool)
    requires forall i :: 0 <= i < |s| ==> p(s[i])
    ensures Filter(s, p) == s
  {
    if |s| > 0 {
      FilterAll(s[1..], p);
    }
  }

  /** Integer sum of `f` over `s`, as `reduce((sum, x) => sum + f(x), 0)` computes it. */
  function SumInt<T>(s: seq<T>, f: T -> int): int
  {
    if |s| == 0 then 0 else f(s[0]) + SumInt(s[1..], f)
  }

  /** Real sum of `f` over `s`, as `reduce((sum, x) => sum + f(x), 0)` computes it. */
  function SumReal<T>(s: seq<T>, f: T -> real): real
  {
    if |s| == 0 then 0.0 else f(s[0]) + SumReal(s[1..], f)
  }

  lemma {:induction false} SumIntConcat<T>(a: seq<T>, b: seq<T>, f: T -> int)
    ensures SumInt(a + b, f) == SumInt(a, f) + SumInt(b, f)
  {
    if |a| == 0 {
      assert a + b == b;
    } else {
      assert (a + b)[1..] == a[1..] + b;
      SumIntConcat(a[1..], b, f);
    }
  }

  lemma {:induction false} SumRealConcat<T>(a: seq<T>, b: seq<T>, f: T -> real)
    ensures SumReal(a + b, f) == SumReal(a, f) + SumReal(b, f)
  {
    if |a| == 0 {
      assert a + b == b;
    } else {
      assert (a + b)[1..] == a[1..] + b;
      SumRealConcat(a[1..], b, f);
    }
  }

  /** Chained filters are one filter by the conjunction. */
  lemma {:induction false} FilterFilter<T>(s: seq<T>, p: T -> bool, q: T -> bool, both: T -> bool)
    requires forall x :: both(x) == (p(x) && q(x))
    ensures Filter(Filter(s, p), q) == Filter(s, both)
  {
    if |s| > 0 {
      FilterFilter(s[1..], p, q, both);
    }
  }

  /** Filters by tests that agree on every element give the same result. */
  lemma {:induction false} FilterSameTest<T>(s: seq<T>, p: T -> bool, q: T -> bool)
    requires forall x :: p(x) == q(x)
    ensures Filter(s, p) == Filter(s, q)
  {
    if |s| > 0 {
      FilterSameTest(s[1..], p, q);
    }
  }
}

=== FILE: stock.dfy ===
/**
 * The server's stock records as the inventory and joint routes read and
 * write them, and the replies the handlers return.
 */
module Stock {

  import opened Wrappers

  /** An inventory lot. `endedAt` is the UTC time it was closed, as a clock reading. */
  datatype Inventory = Inventory(
    strainName: string,
    pricePerGram: real,
    gramsAvailable: real,
    buyingPrice: real,
    soldPrice: Option<real>,
    endedAt: Option<int>)

  /** A batch of joints rolled from one lot. */
  datatype Joint = Joint(
    inventoryId: int,
    gramsUsed: real,
    jointsCount: int,
    pricePerJoint: real,
    assignedTo: Option<int>,
    soldPrice: real)

  /** The database tables the two routes touch, with their next auto-increment ids. */
  datatype Store = Store(
    inventories: map<int, Inventory>,
    joints: map<int, Joint>,
    nextInventoryId: int,
    nextJointId: int)

  /** Every stored id was handed out by the auto-increment counters. */
  predicate Valid(s: Store)
  {
    && (forall k :: k in s.inventories ==> k < s.nextInventoryId)
    && (forall k :: k in s.joints ==> k < s.nextJointId)
  }

  /** A handler's JSON body. */
  datatype Body =
    | Error(message: string)
    | InventoryBody(inventoryId: int, inventory: Inventory)
    | JointBody(jointId: int, joint: Joint)

  /** A handler's `(body, status)` together with the committed store. */
  datatype Reply = Reply(status: int, body: Body, store: Store)

  /** An error reply: nothing is committed. */
  function Reject(status: int, message: string, s: Store): Reply
  {
    Reply(status, Error(message), s)
  }

  /** Python truthiness of an optional number: present and non-zero. */
  predicate TruthyReal(x: Option<real>)
  {
    x.Some? && x.value != 0.0
  }

  /** Python truthiness of an optional integer: present and non-zero. */
  predicate TruthyInt(x: Option<int>)
  {
    x.Some? && x.value != 0
  }
}

=== FILE: stock_api.dfy ===
/**
 * The stock endpoints together, as the application registers both
 * blueprints: any sequence of inventory and joint requests against one
 * store, and the invariants every handler keeps.
 */
module StockApi {

  import opened Wrappers
  import opened Stock
  import InventoryRoutes
  import JointRoutes

  /** One request to the stock endpoints. */
  datatype Request =
    | CreateInventory(ci: InventoryRoutes.CreateRequest)
    | UpdateInventory(inventoryId: int, ui: InventoryRoutes.UpdateRequest)
    | CreateJoint(cj: JointRoutes.CreateRequest)
    | UpdateJoint(jointId: int, uj: JointRoutes.UpdateRequest)

  function Handle(s: Store, req: Request, now: int): Reply
  {
    match req
    case CreateInventory(c) => InventoryRoutes.Create(s, c, now)
    case UpdateInventory(id, u) => InventoryRoutes.Update(s, id, u, now)
    case CreateJoint(c) => JointRoutes.Create(s, c, now)
    case UpdateJoint(id, u) => JointRoutes.Update(s, id, u, now)
  }

  /** Lots are never dropped, and a lot's end time, once set, never changes. */
  predicate EndsKept(s: Store, t: Store)
  {
    forall k :: k in s.inventories ==>
      k in t.inventories && (s.inventories[k].endedAt.Some? ==> t.inventories[k].endedAt == s.inventories[k].endedAt)
  }

  /** No lot holds negative stock. */
  predicate StockNonNegative(s: Store)
  {
    forall k :: k in s.inventories ==> s.inventories[k].gramsAvailable >= 0.0
  }

  /** The request does not create a lot with negative stock (the create handler accepts one). */
  predicate NoNegativeLot(req: Request)
  {
    req.CreateInventory? ==> req.ci.gramsAvailable.GetOr(0.0) >= 0.0
  }

  lemma HandleKeepsEnds(s: Store, req: Request, now: int)
    requires Valid(s)
    ensures EndsKept(s, Handle(s, req, now).store)
  {
  }

  lemma HandleKeepsValid(s: Store, req: Request, now: int)
    requires Valid(s)
    ensures Valid(Handle(s, req, now).store)
  {
  }

  lemma HandleKeepsStockNonNegative(s: Store, req: Request, now: int)
    requires StockNonNegative(s) && NoNegativeLot(req)
    ensures StockNonNegative(Handle(s, req, now).store)
  {
  }

  /** A run of timed requests, each applied to the store the previous one committed. */
  function Run(s: Store, reqs: seq<(Request, int)>): Store
    decreases |reqs|
  {
    if |reqs| == 0 then s else Run(Handle(s, reqs[0].0, reqs[0].1).store, reqs[1..])
  }

  /**
   * Over any run from a well-formed store, ids stay fresh, no lot is lost,
   * and an end time is set at most once and never overwritten.
   */
  lemma {:induction false} RunKeepsEnds(s: Store, reqs: seq<(Request, int)>)
    requires Valid(s)
    ensures Valid(Run(s, reqs))
    ensures EndsKept(s, Run(s, reqs))
    decreases |reqs|
  {
    if |reqs| > 0 {
      var t := Handle(s, reqs[0].0, reqs[0].1).store;
      HandleKeepsEnds(s, reqs[0].0, reqs[0].1);
      HandleKeepsValid(s, reqs[0].0, reqs[0].1);
      RunKeepsEnds(t, reqs[1..]);
    }
  }

  /** Over any run that creates no negative lot, stock never goes below zero. */
  lemma {:induction false} RunKeepsStockNonNegative(s: Store, reqs: seq<(Request, int)>)
    requires StockNonNegative(s)
    requires forall i :: 0 <= i < |reqs| ==> NoNegativeLot(reqs[i].0)
    ensures StockNonNegative(Run(s, reqs))
    decreases |reqs|
  {
    if |reqs| > 0 {
      HandleKeepsStockNonNegative(s, reqs[0].0, reqs[0].1);
      RunKeepsStockNonNegative(Handle(s, reqs[0].0, reqs[0].1).store, reqs[1..]);
    }
  }
}

=== FILE: superadmin_dashboard.dfy ===
/**
 * The superadmin dashboard's figures, computed from the inventory list with
 * each lot's joints and sales nested inside: the four summary totals, the
 * per-day order count, the grams donut (six largest lots plus "Others"),
 * and the per-lot bar and sparkline series.
 */
module SuperadminDashboard {

  import opened Wrappers
  import Seqs

  /** A sale as nested in a lot; `day` is the sale's local date string. */
  datatype SaleRec = SaleRec(day: string, quantity: Option<real>, totalPrice: Option<real>)

  /** A lot with its nested batches (their counts) and sales; null numbers are `None`. */
  datatype LotRec = LotRec(strainName: string, gramsAvailable: Option<real>, jointCounts: seq<Option<int>>, sales: seq<SaleRec>)

  // --------------------------------------------------------------- totals

  function Grams(l: LotRec): real { l.gramsAvailable.GetOr(0.0) }

  function CountOr0(c: Option<int>): int { c.GetOr(0) }

  function LotJoints(l: LotRec): int { Seqs.SumInt(l.jointCounts, CountOr0) }

  function PriceOr0(s: SaleRec): real { s.totalPrice.GetOr(0.0) }

  function QuantityOr0(s: SaleRec): real { s.quantity.GetOr(0.0) }

  function LotSalesAmount(l: LotRec): real { Seqs.SumReal(l.sales, PriceOr0) }

  function LotSalesCount(l: LotRec): real { Seqs.SumReal(l.sales, QuantityOr0) }

  datatype Summary = Summary(grams: real, joints: int, salesAmount: real, salesCount: real)

  /** The four summary cards as nested sums over the list. */
  function Totals(lots: seq<LotRec>): Summary
  {
    Summary(Seqs.SumReal(lots, Grams), Seqs.SumInt(lots, LotJoints),
            Seqs.SumReal(lots, LotSalesAmount), Seqs.SumReal(lots, LotSalesCount))
  }

  /** The cards in one pass over the lots, each lot's inner lists summed as it goes. */
  method ComputeTotals(lots: seq<LotRec>) returns (t: Summary)
    ensures t == Totals(lots)
  {
    var grams, joints, amount, count := 0.0, 0, 0.0, 0.0;
    var i := 0;
    while i < |lots|
      invariant 0 <= i <= |lots|
      invariant grams == Seqs.SumReal(lots[..i], Grams)
      invariant joints == Seqs.SumInt(lots[..i], LotJoints)
      invariant amount == Seqs.SumReal(lots[..i], LotSalesAmount)
      invariant count == Seqs.SumReal(lots[..i], LotSalesCount)
    {
      assert lots[..i + 1] == lots[..i] + [lots[i]];
      Seqs.SumRealConcat(lots[..i], [lots[i]], Grams);
      Seqs.SumIntConcat(lots[..i], [lots[i]], LotJoints);
      Seqs.SumRealConcat(lots[..i], [lots[i]], LotSalesAmount);
      Seqs.SumRealConcat(lots[..i], [lots[i]], LotSalesCount);
      grams := grams + Grams(lots[i]);
      joints := joints + LotJoints(lots[i]);
      amount := amount + LotSalesAmount(lots[i]);
      count := count + LotSalesCount(lots[i]);
      i := i + 1;
    }
    assert lots[..i] == lots;
    t := Summary(grams, joints, amount, count);
  }

  /** The cards of two lists shown together are the sums of their cards. */
  lemma TotalsSplit(a: seq<LotRec>, b: seq<LotRec>)
    ensures Totals(a + b).grams == Totals(a).grams + Totals(b).grams
    ensures Totals(a + b).joints == Totals(a).joints + Totals(b).joints
    ensures Totals(a + b).salesAmount == Totals(a).salesAmount + Totals(b).salesAmount
    ensures Totals(a + b).salesCount == Totals(a).salesCount + Totals(b).salesCount
  {
    Seqs.SumRealConcat(a, b, Grams);
    Seqs.SumIntConcat(a, b, LotJoints);
    Seqs.SumRealConcat(a, b, LotSalesAmount);
    Seqs.SumRealConcat(a, b, LotSalesCount);
  }

  // ---------------------------------------------------------------- trend

  /** One point of the order trend: a date and how many sales fell on it. */
  datatype DayCount = DayCount(day: string, count: nat)

  ghost predicate DistinctDays(t: seq<DayCount>)
  {
    forall i, j :: 0 <= i < j < |t| ==> t[i].day != t[j].day
  }

  function CountOf(d: DayCount): int { d.count }

  /** `if (!map[date]) map[date] = 0; map[date] += 1`, keys kept in first-seen order. */
  function Bump(t: seq<DayCount>, day: string): (r: seq<DayCount>)
    ensures |r| == |t| || |r| == |t| + 1
    ensures forall i :: 0 <= i < |t| ==> r[i].day == t[i].day
    ensures |r| == |t| + 1 <==> forall i :: 0 <= i < |t| ==> t[i].day != day
    ensures |r| == |t| + 1 ==> r[|t|] == DayCount(day, 1)
    ensures exists i :: 0 <= i < |r| && r[i].day == day
  {
    if |t| == 0 then [DayCount(day, 1)]
    else if t[0].day == day then [DayCount(day, t[0].count + 1)] + t[1..]
    else [t[0]] + Bump(t[1..], day)
  }

  lemma {:induction false} BumpAddsOne(t: seq<DayCount>, day: string)
    ensures Seqs.SumInt(Bump(t, day), CountOf) == Seqs.SumInt(t, CountOf) + 1
  {
    if |t| > 0 && t[0].day != day {
      BumpAddsOne(t[1..], day);
    }
  }

  lemma BumpKeepsDistinct(t: seq<DayCount>, day: string)
    requires DistinctDays(t)
    ensures DistinctDays(Bump(t, day))
  {
    var r := Bump(t, day);
    if |r| == |t| + 1 {
      forall i, j | 0 <= i < j < |r| ensures r[i].day != r[j].day {
        if j == |t| {
          assert r[i].day == t[i].day;
        } else {
          assert r[i].day == t[i].day && r[j].day == t[j].day;
        }
      }
    } else {
      forall i, j | 0 <= i < j < |r| ensures r[i].day != r[j].day {
        assert r[i].day == t[i].day && r[j].day == t[j].day;
      }
    }
  }

  /** Every sale of the list, lot by lot. */
  function AllSales(lots: seq<LotRec>): seq<SaleRec>
  {
    if |lots| == 0 then [] else lots[0].sales + AllSales(lots[1..])
  }

  function Tally(t: seq<DayCount>, sales: seq<SaleRec>): seq<DayCount>
    decreases |sales|
  {
    if |sales| == 0 then t else Tally(Bump(t, sales[0].day), sales[1..])
  }

  /** The order trend before the date sort. */
  function Trend(lots: seq<LotRec>): seq<DayCount>
  {
    Tally([], AllSales(lots))
  }

  lemma {:induction false} TallyProperties(t: seq<DayCount>, sales: seq<SaleRec>)
    requires DistinctDays(t)
    ensures DistinctDays(Tally(t, sales))
    ensures Seqs.SumInt(Tally(t, sales), CountOf) == Seqs.SumInt(t, CountOf) + |sales|
    ensures forall i :: 0 <= i < |sales| ==> exists k :: 0 <= k < |Tally(t, sales)| && Tally(t, sales)[k].day == sales[i].day
    ensures forall k :: 0 <= k < |t| ==> exists m :: 0 <= m < |Tally(t, sales)| && Tally(t, sales)[m].day == t[k].day
    decreases |sales|
  {
    if |sales| > 0 {
      var b := Bump(t, sales[0].day);
      BumpAddsOne(t, sales[0].day);
      BumpKeepsDistinct(t, sales[0].day);
      TallyProperties(b, sales[1..]);
      var r := Tally(t, sales);
      assert r == Tally(b, sales[1..]);
      forall i | 0 <= i < |sales| ensures exists k :: 0 <= k < |r| && r[k].day == sales[i].day {
        if i == 0 {
          var j :| 0 <= j < |b| && b[j].day == sales[0].day;
        } else {
          assert sales[i] == sales[1..][i - 1];
        }
      }
      forall k | 0 <= k < |t| ensures exists m :: 0 <= m < |r| && r[m].day == t[k].day {
        assert b[k].day == t[k].day;
      }
    }
  }

  /** How many sales fell on `day`. */
  function SalesOn(sales: seq<SaleRec>, day: string): nat
  {
    if |sales| == 0 then 0 else (if sales[0].day == day then 1 else 0) + SalesOn(sales[1..], day)
  }

  /** The counts the trend lists under `day`, added up. */
  function DayTotal(t: seq<DayCount>, day: string): int
  {
    if |t| == 0 then 0 else (if t[0].day == day then t[0].count else 0) + DayTotal(t[1..], day)
  }

  lemma {:induction false} BumpDayTotal(t: seq<DayCount>, day: string, x: string)
    ensures DayTotal(Bump(t, day), x) == DayTotal(t, x) + (if x == day then 1 else 0)
  {
    if |t| == 0 {
      assert Bump(t, day) == [DayCount(day, 1)];
      assert [DayCount(day, 1)][1..] == [];
    } else if t[0].day == day {
      var h := DayCount(day, t[0].count + 1);
      assert Bump(t, day) == [h] + t[1..];
      assert ([h] + t[1..])[1..] == t[1..];
    } else {
      var rest := Bump(t[1..], day);
      assert Bump(t, day) == [t[0]] + rest;
      assert ([t[0]] + rest)[1..] == rest;
      BumpDayTotal(t[1..], day, x);
    }
  }

  /** A listed day always carries a positive count. */
  predicate PositiveCounts(t: seq<DayCount>)
  {
    forall i :: 0 <= i < |t| ==> t[i].count > 0
  }

  lemma {:induction false} BumpKeepsPositive(t: seq<DayCount>, day: string)
    requires PositiveCounts(t)
    ensures PositiveCounts(Bump(t, day))
  {
    if |t| > 0 && t[0].day != day {
      BumpKeepsPositive(t[1..], day);
    }
  }

  /** Tallying adds each day's sales to that day's listed count, and listed counts stay positive. */
  lemma {:induction false} TallyDayTotal(t: seq<DayCount>, sales: seq<SaleRec>, x: string)
    requires PositiveCounts(t)
    ensures DayTotal(Tally(t, sales), x) == DayTotal(t, x) + SalesOn(sales, x)
    ensures PositiveCounts(Tally(t, sales))
    decreases |sales|
  {
    if |sales| > 0 {
      BumpDayTotal(t, sales[0].day, x);
      BumpKeepsPositive(t, sales[0].day);
      TallyDayTotal(Bump(t, sales[0].day), sales[1..], x);
    }
  }

  lemma {:induction false} AbsentDayTotal(t: seq<DayCount>, x: string)
    requires forall i :: 0 <= i < |t| ==> t[i].day != x
    ensures DayTotal(t, x) == 0
  {
    if |t| > 0 {
      AbsentDayTotal(t[1..], x);
    }
  }

  /** With distinct keys, a day's total is the count listed next to it. */
  lemma {:induction false} DistinctDayTotal(t: seq<DayCount>, k: nat)
    requires DistinctDays(t) && k < |t|
    ensures DayTotal(t, t[k].day) == t[k].count
  {
    if k == 0 {
      AbsentDayTotal(t[1..], t[0].day);
    } else {
      assert t[1..][k - 1] == t[k];
      DistinctDayTotal(t[1..], k - 1);
    }
  }

  lemma {:induction false} SalesOnWitness(sales: seq<SaleRec>, x: string)
    requires SalesOn(sales, x) > 0
    ensures exists i :: 0 <= i < |sales| && sales[i].day == x
  {
    if sales[0].day != x {
      SalesOnWitness(sales[1..], x);
      var i :| 0 <= i < |sales[1..]| && sales[1..][i].day == x;
      assert sales[i + 1].day == x;
    }
  }

  /**
   * The day keys do not repeat, a day is listed iff it has a sale, each
   * listed count is the number of that day's sales, and the counts add up
   * to all sales.
   */
  lemma TrendCountsEverySale(lots: seq<LotRec>)
    ensures DistinctDays(Trend(lots))
    ensures Seqs.SumInt(Trend(lots), CountOf) == |AllSales(lots)|
    ensures forall i :: 0 <= i < |AllSales(lots)| ==> exists k :: 0 <= k < |Trend(lots)| && Trend(lots)[k].day == AllSales(lots)[i].day
    ensures forall k :: 0 <= k < |Trend(lots)| ==>
      && Trend(lots)[k].count == SalesOn(AllSales(lots), Trend(lots)[k].day)
      && exists i :: 0 <= i < |AllSales(lots)| && AllSales(lots)[i].day == Trend(lots)[k].day
  {
    var sales := AllSales(lots);
    var t := Trend(lots);
    TallyProperties([], sales);
    forall k | 0 <= k < |t|
      ensures t[k].count == SalesOn(sales, t[k].day)
      ensures exists i :: 0 <= i < |sales| && sales[i].day == t[k].day
    {
      TallyDayTotal([], sales, t[k].day);
      DistinctDayTotal(t, k);
      SalesOnWitness(sales, t[k].day);
    }
  }

  // ------------------------------------------------------------------ pie

  datatype Slice = Slice(name: string, y: real)

  function SliceY(s: Slice): real { s.y }

  function PieSource(lots: seq<LotRec>): (r: seq<Slice>)
    ensures |r| == |lots|
    ensures forall i :: 0 <= i < |lots| ==> r[i] == Slice(lots[i].strainName, Grams(lots[i]))
  {
    if |lots| == 0 then [] else [Slice(lots[0].strainName, Grams(lots[0]))] + PieSource(lots[1..])
  }

  lemma {:induction false} PieSourceSum(lots: seq<LotRec>)
    ensures Seqs.SumReal(PieSource(lots), SliceY) == Seqs.SumReal(lots, Grams)
  {
    if |lots| > 0 {
      PieSourceSum(lots[1..]);
    }
  }

  ghost predicate Descending(s: seq<Slice>)
  {
    forall i, j :: 0 <= i < j < |s| ==> s[i].y >= s[j].y
  }

  /** Insert into a descending list, before the first slice it is not smaller than. */
  function Insert(x: Slice, s: seq<Slice>): (r: seq<Slice>)
    ensures |r| == |s| + 1
    ensures multiset(r) == multiset(s) + multiset{x}
  {
    if |s| == 0 then [x]
    else if x.y >= s[0].y then [x] + s
    else
      assert s == [s[0]] + s[1..];
      [s[0]] + Insert(x, s[1..])
  }

  ghost predicate AtMost(s: seq<Slice>, v: real)
  {
    forall i :: 0 <= i < |s| ==> s[i].y <= v
  }

  lemma {:induction false} InsertAtMost(x: Slice, s: seq<Slice>, v: real)
    requires AtMost(s, v) && x.y <= v
    ensures AtMost(Insert(x, s), v)
  {
    if |s| > 0 && x.y < s[0].y {
      InsertAtMost(x, s[1..], v);
    }
  }

  lemma InsertKeepsDescending(x: Slice, s: seq<Slice>)
    requires Descending(s)
    ensures Descending(Insert(x, s))
    ensures Seqs.SumReal(Insert(x, s), SliceY) == x.y + Seqs.SumReal(s, SliceY)
  {
    InsertDescending(x, s);
    InsertSum(x, s);
  }

  lemma {:induction false} InsertDescending(x: Slice, s: seq<Slice>)
    requires Descending(s)
    ensures Descending(Insert(x, s))
  {
    if |s| > 0 && x.y < s[0].y {
      InsertDescending(x, s[1..]);
      InsertAtMost(x, s[1..], s[0].y);
      var t := Insert(x, s[1..]);
      assert Insert(x, s) == [s[0]] + t;
      forall i, j | 0 <= i < j < |Insert(x, s)| ensures Insert(x, s)[i].y >= Insert(x, s)[j].y {
        if i > 0 {
          assert Insert(x, s)[i] == t[i - 1] && Insert(x, s)[j] == t[j - 1];
        } else {
          assert Insert(x, s)[j] == t[j - 1];
        }
      }
    }
  }

  lemma {:induction false} InsertSum(x: Slice, s: seq<Slice>)
    ensures Seqs.SumReal(Insert(x, s), SliceY) == x.y + Seqs.SumReal(s, SliceY)
  {
    if |s| > 0 && x.y < s[0].y {
      InsertSum(x, s[1..]);
      var t := Insert(x, s[1..]);
      assert Insert(x, s) == [s[0]] + t;
      assert ([s[0]] + t)[1..] == t;
    }
  }

  /** `[...slices].sort((a, b) => b.y - a.y)`: largest first. */
  function SortDescending(s: seq<Slice>): (r: seq<Slice>)
    ensures |r| == |s|
    ensures multiset(r) == multiset(s)
  {
    if |s| == 0 then []
    else
      assert s == [s[0]] + s[1..];
      Insert(s[0], SortDescending(s[1..]))
  }

  lemma {:induction false} SortProperties(s: seq<Slice>)
    ensures Descending(SortDescending(s))
    ensures Seqs.SumReal(SortDescending(s), SliceY) == Seqs.SumReal(s, SliceY)
  {
    if |s| > 0 {
      SortProperties(s[1..]);
      InsertKeepsDescending(s[0], SortDescending(s[1..]));
    }
  }

  /** The donut: the six largest slices, then one "Others" slice holding the rest. */
  function Pie(lots: seq<LotRec>): seq<Slice>
  {
    Bucket(SortDescending(PieSource(lots)))
  }

  /** Keep the first six slices of a sorted list and fold the rest into "Others". */
  function Bucket(sorted: seq<Slice>): seq<Slice>
  {
    var top := sorted[..if |sorted| < 6 then |sorted| else 6];
    var others := sorted[|top|..];
    if |others| > 0 then top + [Slice("Others", Seqs.SumReal(others, SliceY))] else top
  }

  lemma BucketLayout(s: seq<Slice>)
    requires Descending(s)
    ensures |Bucket(s)| <= 7
    ensures |s| <= 6 ==> Bucket(s) == s
    ensures |s| > 6 ==> |Bucket(s)| == 7 && Bucket(s)[6].name == "Others"
    ensures Descending(Bucket(s)[..if |s| < 6 then |s| else 6])
    ensures forall i, j :: 0 <= i < 6 <= j < |s| ==> Bucket(s)[i].y >= s[j].y
  {
    var n := if |s| < 6 then |s| else 6;
    var b := Bucket(s);
    assert b[..n] == s[..n];
    forall i, j | 0 <= i < 6 <= j < |s| ensures b[i].y >= s[j].y {
      assert b[i] == s[i];
    }
  }

  lemma BucketTotal(s: seq<Slice>)
    ensures Seqs.SumReal(Bucket(s), SliceY) == Seqs.SumReal(s, SliceY)
  {
    var n := if |s| < 6 then |s| else 6;
    assert s == s[..n] + s[n..];
    Seqs.SumRealConcat(s[..n], s[n..], SliceY);
    if |s| > 6 {
      var o := Slice("Others", Seqs.SumReal(s[n..], SliceY));
      Seqs.SumRealConcat(s[..n], [o], SliceY);
    }
  }

  lemma PieShape(lots: seq<LotRec>)
    ensures |Pie(lots)| <= 7
    ensures |lots| <= 6 ==> Pie(lots) == SortDescending(PieSource(lots))
    ensures |lots| > 6 ==> |Pie(lots)| == 7 && Pie(lots)[6].name == "Others"
    ensures Descending(Pie(lots)[..if |lots| < 6 then |lots| else 6])
    ensures forall i, j :: 0 <= i < 6 <= j < |lots| ==> Pie(lots)[i].y >= SortDescending(PieSource(lots))[j].y
    ensures Seqs.SumReal(Pie(lots), SliceY) == Totals(lots).grams
  {
    var sorted := SortDescending(PieSource(lots));
    SortProperties(PieSource(lots));
    PieSourceSum(lots);
    BucketLayout(sorted);
    BucketTotal(sorted);
  }

  /** What the donut is given: the placeholder slice when there is nothing to draw. */
  function PieShown(lots: seq<LotRec>): (r: seq<Slice>)
    ensures |r| > 0
    ensures |lots| == 0 ==> r == [Slice("No Data", 1.0)]
    ensures |lots| > 0 ==> r == Pie(lots)
  {
    if |Pie(lots)| > 0 then Pie(lots) else [Slice("No Data", 1.0)]
  }

  // --------------------------------------------------------- bar, sparkline

  datatype Bar = Bar(name: string, value: real)

  datatype Point = Point(x: int, yval: real)

  function BarOf(l: LotRec): Bar { Bar(l.strainName, LotSalesCount(l)) }

  function BarValue(b: Bar): real { b.value }

  function PointY(p: Point): real { p.yval }

  /** Sold quantity per lot, in list order. */
  function Bars(lots: seq<LotRec>): (r: seq<Bar>)
    ensures |r| == |lots|
    ensures forall i :: 0 <= i < |lots| ==> r[i] == BarOf(lots[i])
  {
    if |lots| == 0 then [] else [BarOf(lots[0])] + Bars(lots[1..])
  }

  /** Sales amount per lot, numbered from 1. */
  function Sparkline(lots: seq<LotRec>, from: int): (r: seq<Point>)
    ensures |r| == |lots|
    ensures forall i :: 0 <= i < |lots| ==> r[i] == Point(from + i, LotSalesAmount(lots[i]))
  {
    if |lots| == 0 then [] else [Point(from, LotSalesAmount(lots[0]))] + Sparkline(lots[1..], from + 1)
  }

  /** The bars add up to the "Total Joints Sold" card. */
  lemma {:induction false} BarsSumToSalesCount(lots: seq<LotRec>)
    ensures Seqs.SumReal(Bars(lots), BarValue) == Totals(lots).salesCount
  {
    if |lots| > 0 {
      BarsSumToSalesCount(lots[1..]);
    }
  }

  /** The sparkline adds up to the "Total Sales" card. */
  lemma {:induction false} SparklineSumsToSalesAmount(lots: seq<LotRec>, from: int)
    ensures Seqs.SumReal(Sparkline(lots, from), PointY) == Totals(lots).salesAmount
  {
    if |lots| > 0 {
      SparklineSumsToSalesAmount(lots[1..], from + 1);
    }
  }
}

=== FILE: user_routes.dfy ===
/**
 * The user routes: signup, login, role updates, and the user list served
 * cache-aside under the key "all_users". Password hashing is the parameter
 * `hashed`; checking a password against a stored hash is the parameter
 * `check`, which answers `None` when the stored hash is malformed.
 */
module UserRoutes {

  import opened Wrappers

  /** A user row; `role` stays `None` until one is assigned. */
  datatype User = User(id: int, username: string, email: string, password: string, role: Option<string>)

  /** The users table, its next auto-increment id, and the cached list. */
  datatype Db = Db(users: seq<User>, nextId: int, cache: Option<seq<User>>)

  /** Ids come from the counter, and ids, emails and usernames are unique. */
  predicate Valid(db: Db)
  {
    && (forall i :: 0 <= i < |db.users| ==> db.users[i].id < db.nextId)
    && (forall i, j :: 0 <= i < j < |db.users| ==>
          db.users[i].id != db.users[j].id && db.users[i].email != db.users[j].email
          && db.users[i].username != db.users[j].username)
  }

  /** The cache is empty or holds exactly the table: it never serves a stale list. */
  predicate Coherent(db: Db)
  {
    db.cache.None? || db.cache.value == db.users
  }

  datatype Body =
    | Error(message: string)
    | Failure                             // a 500 carrying the exception text
    | Users(users: seq<User>, cached: bool)
    | Created(message: string, user: User)
    | Updated(message: string, user: User)
    | LoggedIn(user: User)

  datatype Reply = Reply(status: int, body: Body, db: Db)

  /** `invalidate_user_cache`: delete the cached list. */
  function Invalidate(db: Db): (r: Db)
    ensures r.cache.None? && r.users == db.users && r.nextId == db.nextId
  {
    db.(cache := None)
  }

  /**
   * `UserList.get`: a cached list is served only when it is non-empty (an
   * empty list is falsy); otherwise the table is read and stored.
   */
  function ListUsers(db: Db): (r: Reply)
    ensures r.status == 200 && r.body.Users?
    ensures r.db.users == db.users && r.db.nextId == db.nextId
    ensures r.body.cached <==> db.cache.Some? && |db.cache.value| > 0
    ensures r.body.cached ==> r.body.users == db.cache.value && r.db == db
    ensures !r.body.cached ==> r.body.users == db.users && r.db.cache == Some(db.users)
  {
    if db.cache.Some? && |db.cache.value| > 0 then Reply(200, Users(db.cache.value, true), db)
    else Reply(200, Users(db.users, false), db.(cache := Some(db.users)))
  }

  predicate EmailTaken(db: Db, email: string)
  {
    exists i :: 0 <= i < |db.users| && db.users[i].email == email
  }

  predicate UsernameTaken(db: Db, username: string)
  {
    exists i :: 0 <= i < |db.users| && db.users[i].username == username
  }

  /** A present, non-empty string field. */
  predicate Given(x: Option<string>)
  {
    x.Some? && x.value != ""
  }

  /**
   * `Signup.post`. A taken username passes the handler's own checks and is
   * refused by the table's uniqueness constraint at commit, a 500.
   */
  function Signup(db: Db, username: Option<string>, email: Option<string>, password: Option<string>, hashed: string): (r: Reply)
    ensures !(Given(username) && Given(email) && Given(password)) ==> r == Reply(400, Error("All fields required"), db)
    ensures Given(username) && Given(email) && Given(password) && EmailTaken(db, email.value) ==>
      r == Reply(400, Error("Email already exists"), db)
    ensures Given(username) && Given(email) && Given(password) && !EmailTaken(db, email.value) && UsernameTaken(db, username.value) ==>
      r == Reply(500, Failure, db)
    ensures r.status != 201 ==> r.db == db
    ensures r.status == 201 <==>
      Given(username) && Given(email) && Given(password) && !EmailTaken(db, email.value) && !UsernameTaken(db, username.value)
    ensures r.status == 201 ==>
      && r.body.Created?
      && r.db == Db(db.users + [r.body.user], db.nextId + 1, None)
      && r.body.user == User(db.nextId, username.value, email.value, hashed, r.body.user.role)
      && (|db.users| == 0 ==> r.body.user.role == Some("superadmin") && r.body.message == "User created as superadmin")
      && (|db.users| > 0 ==> r.body.user.role == Some("employee") && r.body.message == "User created")
  {
    if !(Given(username) && Given(email) && Given(password)) then Reply(400, Error("All fields required"), db)
    else if EmailTaken(db, email.value) then Reply(400, Error("Email already exists"), db)
    else if UsernameTaken(db, username.value) then Reply(500, Failure, db)
    else
      var first := |db.users| == 0;
      var user := User(db.nextId, username.value, email.value, hashed, Some(if first then "superadmin" else "employee"));
      Reply(201, Created(if first then "User created as superadmin" else "User created", user),
            Invalidate(db.(users := db.users + [user], nextId := db.nextId + 1)))
  }

  /** The position of the user with id `id`, if any. */
  function Find(users: seq<User>, id: int): (r: Option<nat>)
    ensures r.Some? ==> r.value < |users| && users[r.value].id == id
    ensures r.None? ==> forall i :: 0 <= i < |users| ==> users[i].id != id
  {
    if |users| == 0 then None
    else if users[0].id == id then Some(0)
    else match Find(users[1..], id) case Some(i) => Some(i + 1) case None => None
  }

  /** Python's `str` of an optional role. */
  function RoleText(role: Option<string>): string
  {
    match role case Some(r) => r case None => "None"
  }

  predicate IsSuperadmin(u: User)
  {
    u.role == Some("superadmin")
  }

  /** `UpdateUserRole.put`: the role must be employee, superadmin or absent, and a superadmin stays one. */
  function UpdateRole(db: Db, userId: int, newRole: Option<string>): (r: Reply)
    ensures newRole !in {None, Some("employee"), Some("superadmin")} ==> r == Reply(400, Error("Invalid role"), db)
    ensures newRole in {None, Some("employee"), Some("superadmin")} && Find(db.users, userId).None? ==>
      r == Reply(404, Error("User not found"), db)
    ensures r.status != 200 ==> r.db == db
    ensures r.status == 200 <==>
      && newRole in {None, Some("employee"), Some("superadmin")}
      && Find(db.users, userId).Some?
      && !(IsSuperadmin(db.users[Find(db.users, userId).value]) && newRole != Some("superadmin"))
    ensures r.status == 200 ==>
      && Find(db.users, userId).Some?
      && var i := Find(db.users, userId).value;
      && !(IsSuperadmin(db.users[i]) && newRole != Some("superadmin"))
      && r.db == Db(db.users[i := db.users[i].(role := newRole)], db.nextId, None)
      && r.body == Updated("User role updated to " + RoleText(newRole), db.users[i].(role := newRole))
    ensures (Find(db.users, userId).Some? && IsSuperadmin(db.users[Find(db.users, userId).value])
             && newRole != Some("superadmin")) ==> r.status == 400
  {
    if newRole !in {None, Some("employee"), Some("superadmin")} then Reply(400, Error("Invalid role"), db)
    else match Find(db.users, userId)
      case None => Reply(404, Error("User not found"), db)
      case Some(i) =>
        var user := db.users[i];
        if IsSuperadmin(user) && newRole != Some("superadmin") then
          Reply(400, Error("Cannot downgrade the superadmin"), db)
        else
          var updated := user.(role := newRole);
          Reply(200, Updated("User role updated to " + RoleText(newRole), updated),
                Invalidate(db.(users := db.users[i := updated])))
  }

  /** The position of the first user with this email, as `filter_by(email=...).first()`. */
  function FindEmail(users: seq<User>, email: string): (r: Option<nat>)
    ensures r.Some? ==> r.value < |users| && users[r.value].email == email
    ensures r.None? ==> forall i :: 0 <= i < |users| ==> users[i].email != email
  {
    if |users| == 0 then None
    else if users[0].email == email then Some(0)
    else match FindEmail(users[1..], email) case Some(i) => Some(i + 1) case None => None
  }

  /** `Login.post`; the database is not changed. */
  function Login(db: Db, email: string, password: string, check: (string, string) -> Option<bool>): (r: Reply)
    ensures r.db == db
    ensures r.status == 200 <==>
      FindEmail(db.users, email).Some? && check(db.users[FindEmail(db.users, email).value].password, password) == Some(true)
    ensures r.status == 200 ==> r.body == LoggedIn(db.users[FindEmail(db.users, email).value])
    ensures r.status == 500 <==>
      FindEmail(db.users, email).Some? && check(db.users[FindEmail(db.users, email).value].password, password).None?
    ensures r.status == 500 ==> r.body == Error("Password hash is invalid")
    ensures r.status in {200, 401, 500}
    ensures r.status == 401 ==> r.body == Error("Invalid email or password")
  {
    match FindEmail(db.users, email)
    case None => Reply(401, Error("Invalid email or password"), db)
    case Some(i) =>
      match check(db.users[i].password, password)
      case None => Reply(500, Error("Password hash is invalid"), db)
      case Some(false) => Reply(401, Error("Invalid email or password"), db)
      case Some(true) => Reply(200, LoggedIn(db.users[i]), db)
  }

  /** An unknown email and a wrong password get the same reply, so the reply does not reveal which emails exist. */
  lemma LoginDoesNotRevealAccounts(db: Db, known: string, unknown: string, password: string, check: (string, string) -> Option<bool>)
    requires FindEmail(db.users, known).Some?
    requires check(db.users[FindEmail(db.users, known).value].password, password) == Some(false)
    requires FindEmail(db.users, unknown).None?
    ensures Login(db, known, password, check) == Login(db, unknown, password, check)
  {
  }

  /** Signup keeps ids fresh and emails and usernames unique. */
  lemma SignupKeepsValid(db: Db, username: Option<string>, email: Option<string>, password: Option<string>, hashed: string)
    requires Valid(db)
    ensures Valid(Signup(db, username, email, password, hashed).db)
  {
    var r := Signup(db, username, email, password, hashed);
    if r.status == 201 {
      var us := r.db.users;
      var n := |db.users|;
      forall i, j | 0 <= i < j < |us|
        ensures us[i].id != us[j].id && us[i].email != us[j].email && us[i].username != us[j].username
      {
        if j == n {
          assert us[i] == db.users[i];
        }
      }
    }
  }

  /** A role update touches only a role, so ids, emails and usernames stay unique. */
  lemma UpdateRoleKeepsValid(db: Db, userId: int, newRole: Option<string>)
    requires Valid(db)
    ensures Valid(UpdateRole(db, userId, newRole).db)
  {
    var r := UpdateRole(db, userId, newRole);
    if r.status == 200 {
      var us := r.db.users;
      assert |us| == |db.users|;
      forall k | 0 <= k < |us|
        ensures us[k].id == db.users[k].id && us[k].email == db.users[k].email && us[k].username == db.users[k].username
      {
      }
    }
  }

  /** Role updates never take the superadmin role from anyone. */
  lemma UpdateRoleKeepsSuperadmins(db: Db, userId: int, newRole: Option<string>)
    ensures var r := UpdateRole(db, userId, newRole);
      |r.db.users| == |db.users|
      && forall i :: 0 <= i < |db.users| && IsSuperadmin(db.users[i]) ==> IsSuperadmin(r.db.users[i])
  {
  }

  /** Every operation leaves the cache coherent, so a listing after any of them shows the table. */
  lemma OperationsKeepCacheCoherent(db: Db, userId: int, newRole: Option<string>,
                                    username: Option<string>, email: Option<string>, password: Option<string>, hashed: string)
    requires Coherent(db)
    ensures Coherent(ListUsers(db).db)
    ensures Coherent(Signup(db, username, email, password, hashed).db)
    ensures Coherent(UpdateRole(db, userId, newRole).db)
    ensures ListUsers(db).body.users == db.users
  {
  }

  /** After a successful signup, the next listing reads the table, new user included. */
  lemma ListAfterSignupIsFresh(db: Db, username: Option<string>, email: Option<string>, password: Option<string>, hashed: string)
    requires Signup(db, username, email, password, hashed).status == 201
    ensures var r := Signup(db, username, email, password, hashed);
      ListUsers(r.db).body == Users(r.db.users, false) && r.body.user in ListUsers(r.db).body.users
  {
  }
}

=== FILE: wrappers.dfy ===
/** The Option type shared by every module of the model. */
module Wrappers {

  /** A value that may be absent: JavaScript `undefined`/`null` or Python `None`. */
  datatype Option<+T> = None | Some(value: T) {

    /** The carried value, or `default` when absent (`x || d`, `dict.get(k, d)`). */
    function GetOr(default: T): T
    {
      match this
      case Some(v) => v
      case None => default
    }
  }
}
